=== FILE: README.md ===
# Book club roulette: queue, matching and group lifecycle

A Dafny model of the reading-group engine of bookclub-roulette:

- **Queue store and demand ledger.** A reader queues a book (`addToQueue`) or drops it (`removeFromQueue`). Each book counts its waiting readers (`waitingReaders`).
- **Matching engine.** `checkAndCreateGroup` runs after every enqueue that leaves the book's counter at three or more. It picks up to six queued readers who have no current group. When at least three qualify, it forms an active group with four weekly discussions, rewires the members, and settles the book's counters; otherwise it changes nothing.
- **Group lifecycle.** Manual creation (`createGroup`), posting and paging messages, reading progress, leaving, and marking a weekly discussion done.
- **The Group aggregate.** Schema bounds and defaults, save-time validation, and the instance methods `addMember`, `removeMember` and `getActiveMembersCount`.

The whole store is one immutable `World` value with three maps: books, readers and groups. Every controller is a pure function of the world that returns a `Result`. On success it carries the new `World`. `addToQueue` returns that world together with the count it reports, and `getGroupMessages` returns the page of messages instead, since it writes nothing.

- A failure is `Err(kind)` and carries no new world, so a refused request changes nothing.
- A Mongoose `save` is `Store.Commit`. It writes only when the group passes the schema validators (`GroupModel.SchemaValid`).
- Values the server takes from its environment are parameters:
  - the clock is `now`, one value per request;
  - the id the database gives a new group is `gid`;
  - the order in which MongoDB's collection scan yields readers is `order`.

  The lemmas require `gid` to be fresh, and `order` to list every stored reader once.

Modules, one per component:

- `Base`: ids, `Option`, `Result`, the error kinds, and `Without`, which models both `filter(id !== x)` and `$pull`.
- `Text`: JavaScript's `trim`.
- `GroupModel`: backend/models/Group.js.
- `Store`: the book, reader and world records, the member rewiring shared by both creation paths, the ledger invariant, and the whole-store invariant `WorldValid`.
- `Matching`: `checkAndCreateGroup`.
- `Queueing`: `addToQueue` and `removeFromQueue`.
- `Groups`: the group controller.

Most operations have partner lemmas:

- **Ledger.** `waitingReaders` equals the number of readers whose queue holds the book. Enqueuing and matching keep this. Removing a queued book keeps it too. Two paths can break it: removing a book the reader never queued while its counter is positive, and a manual group that takes in a reader who had queued the book.
- **Store validity.** Every successful operation keeps `WorldValid`.
- **Inverses.**
  - Below the threshold, removing the book just queued restores the world.
  - Adjacent message pages concatenate.
  - Trimming and removing a member are idempotent, and so is marking a discussion done.
  - `leaveGroup` agrees with `removeMember` when member rows are unique.

### Behaviour the code has that a reader might not expect

The model keeps each of these as written:

- **No clamping of progress.** `updateReadingProgress` copies the percentage as sent (backend/controllers/groupController.js:322, 328). The schema's `min: 0` and `max: 100` (backend/models/Group.js:85-86) then make the save fail, so 150 and -10 are refused with a validation error and nothing is written (`Groups.OutOfRangePercentageRejected`).
- **The waiting count can drift from the queues.** Matching keeps `waitingReaders` equal to the number of readers whose queue holds the book. Two paths break that equality:
  - `removeFromQueue` lowers the counter whenever the book exists and its counter is positive, whether or not the caller had queued it (backend/controllers/bookController.js:266-274; `Queueing.RemoveUnqueuedDriftsLedger`);
  - `createGroup` pulls the book from every member's queue but never touches the counter (backend/controllers/groupController.js:179-185; `Groups.CreateGroupSkipsLedger`).
- **Manual groups are not checked.** `createGroup` checks only that at least three ids were sent (backend/controllers/groupController.js:149). It does not look for repeated ids, and it does not compare the count with `maxMembers`. `addMember` enforces both (backend/models/Group.js:129-139), but `createGroup` builds its rows directly (`Groups.CreateGroupTrustsIds`).
- **Leaving.** `leaveGroup` marks only the caller's first member row as `left`, whatever its status (backend/controllers/groupController.js:365-376). It then clears the caller's `currentGroup` without checking that it points at this group (lines 380-382).

## Model

| member | source | states |
|---|---|---|
| Base.Without | backend/controllers/bookController.js:266 | removing a book from a queue keeps exactly the other entries, keeps a queue without repeats free of repeats, and shortens it by one when the book was there once |
| Base.WithoutCounts | backend/controllers/bookController.js:266 | every other entry survives the filter as many times as it occurred, and the removed book not at all |
| Base.WithoutConcat | backend/controllers/bookController.js:266 | filtering works piece by piece, so the entries that survive keep their original order |
| Base.FirstIndex | backend/controllers/groupController.js:316-318 | `find` yields the first position whose element matches, and nothing exactly when no element matches |
| Text.TrimIsCore | backend/controllers/groupController.js:240 | the trimmed message is a contiguous piece of the original, whitespace is all that is cut on either side, and it neither starts nor ends with whitespace |
| Text.TrimEmptyIffBlank | backend/controllers/groupController.js:210 | a message trims to the empty string exactly when it is entirely whitespace |
| Text.TrimIdempotent | backend/controllers/groupController.js:240 | trimming stored text again changes nothing |
| GroupModel.NewGroup | backend/models/Group.js:25-112 | a new group document has status `forming`, six as its member cap, no rows, start at creation and end thirty days later, and passes validation |
| GroupModel.Schedule | backend/controllers/bookController.js:402-423 | the schedule holds weeks one to four, due 7·(i+1) days after creation, with the given topics, none completed and nobody attending |
| GroupModel.ActiveRows | backend/controllers/bookController.js:397-400 | one `active` member row per id, in the order given |
| GroupModel.Founded | backend/controllers/bookController.js:395-424 | a formed group is active, has the given rows and the four-week schedule, has no messages or progress, and passes validation |
| GroupModel.FoundedRows | backend/controllers/bookController.js:397-400 | every row of a new group counts as active, and the rows are unique when the ids are |
| GroupModel.AddMember | backend/models/Group.js:128-142 | a full group refuses first, then an existing row of any status refuses; otherwise exactly one active row is appended and nothing else changes |
| GroupModel.RemoveMember | backend/models/Group.js:145-152 | every row of the reader becomes `left`, no row is removed or reordered, other readers' rows are untouched, and the reader is no longer active |
| GroupModel.ActiveMembersCount | backend/models/Group.js:155-157 | `getActiveMembersCount` is the number of rows whose status is `active`, never more than the number of rows |
| GroupModel.CountActiveIsActiveRows | backend/models/Group.js:155-157 | the active count is the number of rows whose status is `active` |
| GroupModel.CountActiveAllActive | backend/models/Group.js:155-157 | the active count equals the row count exactly when every row is active |
| GroupModel.AddMemberActiveCount | backend/models/Group.js:128-142 | a successful `addMember` raises the active count by one and keeps rows unique |
| GroupModel.RemoveMemberActiveCount | backend/models/Group.js:145-157 | `removeMember` lowers the active count by exactly the number of the reader's active rows: it never raises it, and lowers it exactly when the reader had an active row |
| GroupModel.RemoveMemberIdempotent | backend/models/Group.js:145-152 | removing a member twice is removing once |
| GroupModel.MembershipMovesForward | backend/models/Group.js:128-152 | adding and removing keep every row in place with its reader; no row becomes active again and none leaves `left` |
| Store.Join | backend/controllers/bookController.js:429-434 | a joining reader's current group is the new group, the group is appended to the history, and the book leaves the queue while every other book stays |
| Store.Enroll | backend/controllers/groupController.js:179-185 | each listed stored reader has the new group as current group, the book pulled from the queue, and only the new group added to the history; unlisted readers and missing ids change nothing |
| Store.EnrollDistinct | backend/controllers/bookController.js:429-434 | with distinct ids each member is rewired exactly once |
| Store.EnrollKeepsReaders | backend/controllers/groupController.js:179-185 | rewiring into a stored group leaves every reader referring only to stored groups |
| Store.Commit | backend/models/Group.js:25-86 | a save writes the group exactly when it passes the schema's bounds, and otherwise fails with a validation error and writes nothing |
| Matching.Eligible | backend/controllers/bookController.js:388-391 | the query matches exactly the readers who have the book queued and no current group, each once |
| Matching.EligibleConcat | backend/controllers/bookController.js:388-391 | the matches keep the scan order: matches of `a + c` are the matches of `a` followed by those of `c` |
| Matching.Select | backend/controllers/bookController.js:388-391 | the intake is the first min(6, eligible) matches, all of them eligible |
| Matching.EligibleCount | backend/controllers/bookController.js:388-391 | whatever the scan order, every eligible reader is found |
| Matching.PassedOverOnlyWhenFull | backend/controllers/bookController.js:388-391 | an eligible reader is left out only when six were already taken |
| Matching.Match | backend/controllers/bookController.js:385-446 | without a group nothing changes; with one, the group is stored, the book's waiting count drops by the member count (floored at zero), its total reads rise by one, and no other book changes |
| Matching.MatchThreshold | backend/controllers/bookController.js:393 | a group forms exactly when at least three readers are eligible |
| Matching.MatchGroupShape | backend/controllers/bookController.js:395-424 | the formed group has as many members as the smaller of six and the number of eligible readers, all distinct, active and eligible before the call; its cap is six, it ends 30 days after `now`, it has four weekly discussions with the fixed topics, and it passes validation |
| Matching.MatchRewiresMembers | backend/controllers/bookController.js:429-434 | each member points at the group, has it appended to its history and no longer queues the book; non-members are untouched |
| Matching.MatchTakesAllWhenFew | backend/controllers/bookController.js:388-400 | with three to six eligible readers the group takes all of them |
| Matching.EnrollQueuedSets | backend/controllers/bookController.js:429-434 | rewiring the members takes exactly them out of the book's queue set and leaves other books' queue sets alone |
| Matching.MatchKeepsLedger | backend/controllers/bookController.js:436-442 | matching keeps every book's counter equal to its queued readers, and the floor at zero never fires on a consistent ledger |
| Matching.MatchKeepsStoreValid | backend/controllers/bookController.js:385-446 | matching with a fresh group id keeps the store well formed |
| Queueing.Enqueue | backend/controllers/bookController.js:222-228 | the book is appended to the caller's queue and the book's waiting count rises by one; no other reader, book or group changes |
| Queueing.AddToQueue | backend/controllers/bookController.js:185-239 | the four refusals come in the source's order; success exactly when all checks pass; the reported count is the old one plus one; at most the one new group appears; below three, only the caller's queue and the book's counter change; whenever no new group appears, the result is exactly the push plus the increment |
| Queueing.AddToQueueRewiresMembers | backend/controllers/bookController.js:222-234 | when the call forms a group, every reader who got a member row has it as current group, has it appended to the history and no longer queues the book; the caller, if left out, keeps the book just pushed; every other reader is untouched |
| Queueing.EnqueueSets | backend/controllers/bookController.js:222-228 | enqueuing adds exactly the caller to the book's queue set, and to its eligible set when the caller has no current group |
| Queueing.AddToQueueFormsGroup | backend/controllers/bookController.js:227-233 | a group forms exactly when the new count is at least three and at least three readers are eligible after the enqueue |
| Queueing.AddToQueueKeepsLedger | backend/controllers/bookController.js:222-233 | `addToQueue` keeps every book's counter equal to its queued readers |
| Queueing.AddToQueueKeepsStoreValid | backend/controllers/bookController.js:185-239 | `addToQueue` keeps the store well formed |
| Queueing.ThirdReaderFormsGroup | backend/controllers/bookController.js:227-233 | the third free reader to queue a book forms a group of exactly the three; the counter returns to zero and total reads rise by one |
| Queueing.RemoveFromQueue | backend/controllers/bookController.js:252-279 | only a missing reader fails; the book is filtered out of the caller's queue, the other entries kept in order; the counter drops by one, never below zero, whether or not the caller had queued it; nothing else changes |
| Queueing.RemoveQueuedKeepsLedger | backend/controllers/bookController.js:265-274 | removing a queued book keeps every ledger consistent |
| Queueing.RemoveUnqueuedDriftsLedger | backend/controllers/bookController.js:266-274 | removing a book the caller never queued still lowers the counter, so a consistent ledger becomes inconsistent |
| Queueing.RemoveTwice | backend/controllers/bookController.js:265-274 | a second removal leaves the queues alone but lowers the counter again |
| Queueing.AddThenRemoveRestores | backend/controllers/bookController.js:222-274 | below the threshold, removing the book just queued gives back the world before the enqueue |
| Queueing.RemoveFromQueueKeepsStoreValid | backend/controllers/bookController.js:252-279 | `removeFromQueue` keeps the store well formed |
| Groups.CreateGroup | backend/controllers/groupController.js:145-191 | a missing book id, missing ids or fewer than three ids fail, then a missing book; otherwise one active row per id, the default cap of six, no messages and no progress, an end date 30 days after `now`, four untitled weekly discussions; each stored member gets the group as current group, loses only the book from the queue and gains only the group in the history; no other reader, group or book touched |
| Groups.CreateGroupRewiresMembers | backend/controllers/groupController.js:178-185 | with distinct ids, every stored member gets the new group as current group, has it appended to the end of its history and loses only the book from its queue, exactly as a matched member does |
| Groups.CreateGroupSkipsLedger | backend/controllers/groupController.js:176-185 | pulling a queued reader into a manual group leaves the counter above the number of readers still queued |
| Groups.CreateGroupTrustsIds | backend/controllers/groupController.js:149-166 | three copies of one id make a group with duplicate rows, and seven ids overfill the member cap |
| Groups.CreateGroupKeepsStoreValid | backend/controllers/groupController.js:164-185 | manual creation under a fresh id keeps the store well formed |
| Groups.CommitKeepsStoreValid | backend/controllers/groupController.js:244 | saving a well-formed replacement for a stored group succeeds and keeps the store well formed |
| Groups.SendMessage | backend/controllers/groupController.js:204-255 | a missing or blank message is refused first, then a missing group, then a caller without an active row, then text over 1000 characters; otherwise exactly one trimmed, unedited entry is appended and nothing else changes |
| Groups.SendMessageKeepsStoreValid | backend/controllers/groupController.js:237-244 | posting keeps the store well formed |
| Groups.GetGroupMessages | backend/controllers/groupController.js:268-288 | a limit that is not positive is refused and a missing group is reported; otherwise the page is the contiguous run of min(limit, remaining) messages from the start position, where a negative skip counts from the end; defaults are 50 and 0 |
| Groups.PagesConcatenate | backend/controllers/groupController.js:270-276 | two adjacent pages read back to back are the page that spans both |
| Groups.LastPageShowsPost | backend/controllers/groupController.js:238-276 | right after a post, the one-message page at skip -1 is exactly that post |
| Groups.UpdateReadingProgress | backend/controllers/groupController.js:301-333 | a missing group fails; on a valid group with an absent or in-range percentage the update succeeds; an existing row is updated in place and a missing or zero value keeps the old one; otherwise a row is appended with zero defaults; an out-of-range save fails; nothing else changes |
| Groups.ProgressStaysUnique | backend/controllers/groupController.js:315-331 | progress stays one row per reader, and the caller has a row afterwards |
| Groups.FalsyKeepsProgress | backend/controllers/groupController.js:321-328 | a zero page and an absent percentage keep an existing row's values, and become zeros on a new row |
| Groups.OutOfRangePercentageRejected | backend/controllers/groupController.js:320-333 | a percentage of 150 or -10 is refused with a validation error, not clamped |
| Groups.ProgressNeedsNoMembership | backend/controllers/groupController.js:301-333 | a reader with no member row in the group can still record in-range progress, and afterwards has a progress row there |
| Groups.UpdateProgressKeepsStoreValid | backend/controllers/groupController.js:315-333 | a progress update keeps the store well formed |
| Groups.LeaveGroup | backend/controllers/groupController.js:351-382 | a missing group, then a caller without a row, fail; otherwise only the caller's first row becomes `left`, the group keeps its status, and the caller's current group is cleared |
| Groups.LeaveKeepsHistory | backend/controllers/groupController.js:364-377 | leaving keeps every row in place, keeps the group status, and lowers the active count by one exactly when the row was active |
| Groups.LeaverCannotPost | backend/controllers/groupController.js:226-235 | with one row per reader, a reader who has left can no longer post |
| Groups.LeaveAgreesWithRemoveMember | backend/controllers/groupController.js:365-376 | with one row per reader, leaving saves the same group that `removeMember` computes |
| Groups.LeaveKeepsStoreValid | backend/controllers/groupController.js:364-382 | leaving keeps the store well formed |
| Groups.CompleteDiscussion | backend/controllers/groupController.js:400-425 | a missing group, then a missing week, fail; otherwise the first discussion of that week is completed and the caller is added to its attendees once, its week, topic and date kept; no other discussion changes |
| Groups.CompleteDiscussionIdempotent | backend/controllers/groupController.js:412-423 | marking a discussion done twice is marking it once |
| Groups.CompleteDiscussionKeepsStoreValid | backend/controllers/groupController.js:420-425 | attendee lists stay free of repeats, so the store stays well formed |

## Left out

- HTTP and Express are left out: status codes, response bodies, authentication and `req.user`. A refused request is an `Error` value, and the only response data modelled are the count `addToQueue` reports and the page of messages `getGroupMessages` returns.
- Persistence is reduced to maps: Mongoose casting, `populate` and the `timestamps` option are gone, and ObjectIds become natural numbers. The `groupName` default is left out because nothing in the core reads it.
- Each request is modelled as atomic. The source issues independent read-modify-write calls, so concurrent requests can lose updates or form two groups; that interleaving is not modelled.
- Each save is modelled as all-or-nothing. In the source a save that throws after earlier writes, or an error that `checkAndCreateGroup` swallows, can leave partial state; this is not modelled.
- Matching.Match: never fails. A formed group always passes validation, and database errors are outside the model.
- Groups.SendMessage: counts the 1000-character limit in Unicode code points, whereas JavaScript counts UTF-16 code units. A message with characters outside the Basic Multilingual Plane can pass here and fail in the source.
- Groups.UpdateReadingProgress: page and percentage are integers. Fractional, string and `NaN` values, which JavaScript's `||` and Mongoose casting would also handle, are left out.
- Groups.GetGroupMessages: skip and limit are already-parsed integers. A query string that `parseInt` turns into `NaN` is left out.
- Groups.CompleteDiscussion: the week is an already-parsed integer. A path segment that `parseInt` turns into `NaN` matches nothing in the source, and is left out.
- Groups.CreateGroup: the member ids are a sequence. A `memberIds` value that is a string or another non-array is left out.
- Member `joinedAt` and message `edited` are the schema defaults and are never changed; message editing is not part of this core.
- The catalog and user-profile controllers and the front end are not part of this model.

=== FILE: base.dfy ===
/** Identifiers, the outcome type every operation returns, and the small
    sequence vocabulary the controllers are written in. */
module Base {

  /** Store identifiers (MongoDB ObjectIds), opaque to the model. */
  type ReaderId = nat
  type BookId = nat
  type GroupId = nat

  /** Milliseconds since the epoch, the unit of `Date.now()`. */
  type Millis = int

  datatype Option<+T> = None | Some(value: T)

  /** The failure kinds the controllers report to their callers. */
  datatype Error =
    | BadRequest          // a required request field is missing (HTTP 400)
    | BookNotFound
    | ReaderNotFound
    | GroupNotFound
    | DiscussionNotFound
    | AlreadyQueued
    | NotAMember
    | EmptyMessage
    | GroupFull
    | AlreadyMember
    | ValidationError     // the document failed schema validation on save
    | QueryRejected       // the database refused the query itself

  datatype Result<+T> = Ok(value: T) | Err(error: Error)

  predicate Distinct<T(==)>(s: seq<T>) {
    forall i, j | 0 <= i < j < |s| :: s[i] != s[j]
  }

  /** `s` with every occurrence of `x` removed and the order kept: what both
      `queue.filter(id => id !== x)` and MongoDB's `$pull` compute. */
  function Without<T(==,!new)>(s: seq<T>, x: T): (r: seq<T>)
    ensures forall y :: y in r <==> y in s && y != x
    ensures x !in s ==> r == s
    ensures Distinct(s) ==> Distinct(r)
    ensures Distinct(s) && x in s ==> |r| == |s| - 1
    ensures x in s ==> |r| < |s|
  {
    if |s| == 0 then []
    else if s[0] == x then
      var r := Without(s[1..], x);
      assert Distinct(s) ==> x !in s[1..];
      r
    else
      var rest := Without(s[1..], x);
      assert Distinct(s) ==> s[0] !in s[1..];
      [s[0]] + rest
  }

  /** Every entry other than `x` survives as many times as it occurred;
      `x` does not survive at all. */
  lemma {:induction false} WithoutCounts<T(!new)>(s: seq<T>, x: T)
    ensures multiset(Without(s, x)) == multiset(s)[x := 0]
  {
    if |s| > 0 {
      assert s == [s[0]] + s[1..];
      WithoutCounts(s[1..], x);
    }
  }

  /** Removal works piece by piece: what survives of `s + t` is what
      survives of `s` followed by what survives of `t`, so the kept entries
      stay in their original order. */
  lemma {:induction false} WithoutConcat<T(!new)>(s: seq<T>, t: seq<T>, x: T)
    ensures Without(s + t, x) == Without(s, x) + Without(t, x)
  {
    if |s| == 0 {
      assert s + t == t;
    } else {
      var st := s + t;
      assert st[0] == s[0] && st[1..] == s[1..] + t;
      WithoutConcat(s[1..], t, x);
      var tail := Without(s[1..], x) + Without(t, x);
      if s[0] == x {
        assert Without(st, x) == Without(st[1..], x);
      } else {
        assert Without(st, x) == [s[0]] + tail;
      }
    }
  }

  /** On a single entry, removal drops exactly the entry equal to `x`. */
  lemma WithoutSingle<T(!new)>(y: T, x: T)
    ensures Without([y], x) == if y == x then [] else [y]
  {
    assert [y][1..] == [];
  }

  /** Removing an element just appended to a sequence that did not hold it
      gives the sequence back. */
  lemma {:induction false} WithoutAppended<T(!new)>(s: seq<T>, x: T)
    requires x !in s
    ensures Without(s + [x], x) == s
  {
    if |s| > 0 {
      assert (s + [x])[1..] == s[1..] + [x];
      WithoutAppended(s[1..], x);
      assert s == [s[0]] + s[1..];
    }
  }

  /** The index of the first element satisfying `p`, as JavaScript's
      `Array.prototype.find` locates it. */
  function FirstIndex<T>(s: seq<T>, p: T -> bool): (r: Option<nat>)
    ensures r.Some? ==> r.value < |s| && p(s[r.value])
    ensures r.Some? ==> forall j | 0 <= j < r.value :: !p(s[j])
    ensures r.None? <==> forall j | 0 <= j < |s| :: !p(s[j])
  {
    if |s| == 0 then None
    else if p(s[0]) then Some(0)
    else
      match FirstIndex(s[1..], p)
      case None => None
      case Some(k) => Some(k + 1)
  }

  function Min(a: int, b: int): int {
    if a <= b then a else b
  }

  function Max(a: int, b: int): int {
    if a >= b then a else b
  }

  /** The elements of a sequence, as a set. */
  function Elements<T>(s: seq<T>): set<T> {
    set x | x in s
  }

  /** A sequence without repetitions has as many elements as its length. */
  lemma {:induction false} DistinctCardinality<T>(s: seq<T>)
    requires Distinct(s)
    ensures |Elements(s)| == |s|
  {
    if |s| > 0 {
      var init := s[..|s| - 1];
      assert Distinct(init);
      DistinctCardinality(init);
      assert s == init + [s[|s| - 1]];
      assert s[|s| - 1] !in init;
      assert Elements(s) == Elements(init) + {s[|s| - 1]};
    }
  }

  lemma SubsetCardinality<T>(a: set<T>, b: set<T>)
    requires a <= b
    ensures |a| <= |b|
    ensures |b - a| == |b| - |a|
  {
    assert b == a + (b - a);
  }
}

=== FILE: group_model.dfy ===
/** The Group aggregate of backend/models/Group.js: its records, schema
    bounds and defaults, save-time validation, and the three instance methods
    `addMember`, `removeMember` and `getActiveMembersCount`. */
module GroupModel {
  import opened Base

  const MIN_MAX_MEMBERS := 3
  const MAX_MAX_MEMBERS := 10
  const DEFAULT_MAX_MEMBERS := 6
  const MAX_MESSAGE_LENGTH := 1000
  const MAX_PERCENTAGE := 100
  const DAY_MS := 24 * 60 * 60 * 1000
  const DEFAULT_SPAN_DAYS := 30
  const SCHEDULE_WEEKS := 4

  datatype MemberStatus = Active | Left | Completed

  datatype GroupStatus = Forming | GroupActive | GroupCompleted | Disbanded

  datatype Member = Member(userId: ReaderId, joinedAt: Millis, status: MemberStatus)

  datatype Discussion = Discussion(
    week: int,
    scheduledDate: Millis,
    topic: string,
    completed: bool,
    attendees: seq<ReaderId>)

  datatype Message = Message(userId: ReaderId, text: string, timestamp: Millis, edited: bool)

  datatype Progress = Progress(userId: ReaderId, currentPage: int, percentage: int, lastUpdated: Millis)

  datatype Group = Group(
    bookId: BookId,
    members: seq<Member>,
    maxMembers: int,
    schedule: seq<Discussion>,
    messages: seq<Message>,
    progress: seq<Progress>,
    status: GroupStatus,
    createdAt: Millis,
    startDate: Millis,
    endDate: Millis)

  // ---------------------------------------------------------------------
  // Schema validation, run by every `save`

  /** A stored message is required (Mongoose refuses the empty string) and
      at most 1000 characters long. */
  predicate ValidMessage(m: Message) {
    0 < |m.text| <= MAX_MESSAGE_LENGTH
  }

  predicate ValidProgress(p: Progress) {
    0 <= p.percentage <= MAX_PERCENTAGE
  }

  /** What `save` checks before it writes: the `min`/`max`/`maxlength`/
      `required` validators of the schema. The enum validators are the
      datatypes themselves. */
  predicate SchemaValid(g: Group) {
    && MIN_MAX_MEMBERS <= g.maxMembers <= MAX_MAX_MEMBERS
    && (forall i | 0 <= i < |g.messages| :: ValidMessage(g.messages[i]))
    && (forall i | 0 <= i < |g.progress| :: ValidProgress(g.progress[i]))
  }

  // ---------------------------------------------------------------------
  // Defaults and construction

  /** A group document as the schema defaults make it, before the creator
      fills in members, schedule and status. */
  function NewGroup(bookId: BookId, now: Millis): (g: Group)
    ensures g.bookId == bookId
    ensures g.status == Forming
    ensures g.maxMembers == DEFAULT_MAX_MEMBERS
    ensures g.members == [] && g.schedule == [] && g.messages == [] && g.progress == []
    ensures g.createdAt == now && g.startDate == now
    ensures g.endDate == g.startDate + DEFAULT_SPAN_DAYS * DAY_MS
    ensures SchemaValid(g)
  {
    Group(bookId, [], DEFAULT_MAX_MEMBERS, [], [], [], Forming, now, now, now + 30 * 24 * 60 * 60 * 1000)
  }

  /** The discussion topics the matching engine writes. */
  const FORMATION_TOPICS: seq<string> := [
    "First Impressions & Setting",
    "Character Development",
    "Plot & Themes",
    "Conclusion & Final Thoughts"
  ]

  /** Manual creation sets no topic, so each takes the schema default. */
  const DEFAULT_TOPICS: seq<string> := ["", "", "", ""]

  /** The four weekly discussions both creation paths write. */
  function Schedule(now: Millis, topics: seq<string>): (s: seq<Discussion>)
    requires |topics| == SCHEDULE_WEEKS
    ensures |s| == SCHEDULE_WEEKS
    ensures forall i | 0 <= i < |s| ::
      && s[i].week == i + 1
      && s[i].scheduledDate == now + 7 * (i + 1) * DAY_MS
      && s[i].topic == topics[i]
      && !s[i].completed
      && s[i].attendees == []
  {
    [ Discussion(1, now + 7 * 24 * 60 * 60 * 1000, topics[0], false, []),
      Discussion(2, now + 14 * 24 * 60 * 60 * 1000, topics[1], false, []),
      Discussion(3, now + 21 * 24 * 60 * 60 * 1000, topics[2], false, []),
      Discussion(4, now + 28 * 24 * 60 * 60 * 1000, topics[3], false, []) ]
  }

  /** One `active` member row per id, in the given order. */
  function ActiveRows(ids: seq<ReaderId>, now: Millis): (ms: seq<Member>)
    ensures |ms| == |ids|
    ensures forall i | 0 <= i < |ids| :: ms[i] == Member(ids[i], now, Active)
  {
    seq(|ids|, i requires 0 <= i < |ids| => Member(ids[i], now, Active))
  }

  /** The group either creation path saves: the default document with the
      members, the schedule, and status `active`. */
  function Founded(bookId: BookId, ids: seq<ReaderId>, now: Millis, topics: seq<string>): (g: Group)
    requires |topics| == SCHEDULE_WEEKS
    ensures g.bookId == bookId && g.status == GroupActive
    ensures g.members == ActiveRows(ids, now)
    ensures g.schedule == Schedule(now, topics)
    ensures g.maxMembers == DEFAULT_MAX_MEMBERS
    ensures g.messages == [] && g.progress == []
    ensures g.endDate == now + DEFAULT_SPAN_DAYS * DAY_MS
    ensures SchemaValid(g)
  {
    NewGroup(bookId, now).(members := ActiveRows(ids, now), status := GroupActive, schedule := Schedule(now, topics))
  }

  // ---------------------------------------------------------------------
  // Membership

  predicate HasRow(g: Group, uid: ReaderId) {
    exists i | 0 <= i < |g.members| :: g.members[i].userId == uid
  }

  predicate IsActiveMember(g: Group, uid: ReaderId) {
    exists i | 0 <= i < |g.members| :: g.members[i].userId == uid && g.members[i].status == Active
  }

  /** No reader has two member rows. */
  predicate RowsUnique(ms: seq<Member>) {
    forall i, j | 0 <= i < j < |ms| :: ms[i].userId != ms[j].userId
  }

  /** `addMember`: refuses when the group is full (counting rows of every
      status) or the reader already has a row of any status; otherwise
      appends one `active` row. */
  function AddMember(g: Group, uid: ReaderId, now: Millis): (r: Result<Group>)
    ensures r.Err? <==> |g.members| >= g.maxMembers || HasRow(g, uid)
    ensures |g.members| >= g.maxMembers ==> r == Err(GroupFull)
    ensures |g.members| < g.maxMembers && HasRow(g, uid) ==> r == Err(AlreadyMember)
    ensures r.Ok? ==>
      && |r.value.members| == |g.members| + 1
      && r.value.members[..|g.members|] == g.members
      && r.value.members[|g.members|] == Member(uid, now, Active)
      && r.value.(members := g.members) == g
    ensures r.Ok? && |g.members| <= g.maxMembers ==> |r.value.members| <= g.maxMembers
  {
    if |g.members| >= g.maxMembers then Err(GroupFull)
    else if exists i | 0 <= i < |g.members| :: g.members[i].userId == uid then Err(AlreadyMember)
    else Ok(g.(members := g.members + [Member(uid, now, Active)]))
  }

  /** `removeMember`: marks every row of the reader `left`; rows are never
      deleted. */
  function RemoveMember(g: Group, uid: ReaderId): (r: Group)
    ensures |r.members| == |g.members|
    ensures forall i | 0 <= i < |g.members| ::
      && r.members[i].userId == g.members[i].userId
      && r.members[i].joinedAt == g.members[i].joinedAt
      && (g.members[i].userId != uid ==> r.members[i] == g.members[i])
    ensures forall i | 0 <= i < |g.members| && g.members[i].userId == uid ::
      r.members[i] == g.members[i].(status := Left)
    ensures !IsActiveMember(r, uid)
    ensures HasRow(r, uid) <==> HasRow(g, uid)
    ensures r.(members := g.members) == g
  {
    g.(members := seq(|g.members|, i requires 0 <= i < |g.members| =>
      if g.members[i].userId == uid then g.members[i].(status := Left) else g.members[i]))
  }

  /** Number of `active` rows, counted from the front. */
  function CountActive(ms: seq<Member>): (n: nat)
    ensures n <= |ms|
  {
    if |ms| == 0 then 0
    else CountActive(ms[..|ms| - 1]) + (if ms[|ms| - 1].status == Active then 1 else 0)
  }

  /** `getActiveMembersCount`. */
  function ActiveMembersCount(g: Group): (n: nat)
    ensures n <= |g.members|
    ensures n == |ActiveIndices(g.members)|
  {
    CountActiveIsActiveRows(g.members);
    CountActive(g.members)
  }

  function ActiveIndices(ms: seq<Member>): set<nat> {
    set i: nat | i < |ms| && ms[i].status == Active
  }

  /** The count is the number of rows whose status is `active`. */
  lemma {:induction false} CountActiveIsActiveRows(ms: seq<Member>)
    ensures CountActive(ms) == |ActiveIndices(ms)|
  {
    if |ms| > 0 {
      var n := |ms| - 1;
      var init := ms[..n];
      CountActiveIsActiveRows(init);
      if ms[n].status == Active {
        assert ActiveIndices(ms) == ActiveIndices(init) + {n};
      } else {
        assert ActiveIndices(ms) == ActiveIndices(init);
      }
    }
  }

  lemma {:induction false} CountActiveAppend(ms: seq<Member>, m: Member)
    ensures CountActive(ms + [m]) == CountActive(ms) + (if m.status == Active then 1 else 0)
  {
    assert (ms + [m])[..|ms|] == ms;
  }

  /** The active count reaches the row count exactly when every row is
      active. */
  lemma {:induction false} CountActiveAllActive(ms: seq<Member>)
    ensures CountActive(ms) == |ms| <==> forall i | 0 <= i < |ms| :: ms[i].status == Active
  {
    if |ms| > 0 {
      var n := |ms| - 1;
      CountActiveAllActive(ms[..n]);
      assert forall i | 0 <= i < n :: ms[..n][i] == ms[i];
    }
  }

  /** A founded group's rows are all active, and unique when the ids are. */
  lemma FoundedRows(bookId: BookId, ids: seq<ReaderId>, now: Millis, topics: seq<string>)
    requires |topics| == SCHEDULE_WEEKS
    ensures var g := Founded(bookId, ids, now, topics);
      && ActiveMembersCount(g) == |ids|
      && (Distinct(ids) ==> RowsUnique(g.members))
  {
    CountActiveAllActive(Founded(bookId, ids, now, topics).members);
  }

  /** A successful `addMember` raises the active count by one and keeps
      member rows unique. */
  lemma AddMemberActiveCount(g: Group, uid: ReaderId, now: Millis)
    requires AddMember(g, uid, now).Ok?
    ensures ActiveMembersCount(AddMember(g, uid, now).value) == ActiveMembersCount(g) + 1
    ensures RowsUnique(g.members) ==> RowsUnique(AddMember(g, uid, now).value.members)
  {
    CountActiveAppend(g.members, Member(uid, now, Active));
  }

  /** The positions of the reader's `active` rows. */
  function ActiveRowsOf(ms: seq<Member>, uid: ReaderId): set<nat> {
    set i: nat | i < |ms| && ms[i].status == Active && ms[i].userId == uid
  }

  /** `removeMember` lowers the active count by exactly the number of the
      reader's active rows: it never raises it, lowers it when the reader
      had an active row, and leaves it alone otherwise. */
  lemma {:induction false} RemoveMemberActiveCount(g: Group, uid: ReaderId)
    ensures ActiveMembersCount(RemoveMember(g, uid)) == ActiveMembersCount(g) - |ActiveRowsOf(g.members, uid)|
    ensures ActiveMembersCount(RemoveMember(g, uid)) <= ActiveMembersCount(g)
    ensures !IsActiveMember(g, uid) ==> ActiveMembersCount(RemoveMember(g, uid)) == ActiveMembersCount(g)
    ensures IsActiveMember(g, uid) ==> ActiveMembersCount(RemoveMember(g, uid)) < ActiveMembersCount(g)
  {
    var r := RemoveMember(g, uid);
    var before, after := ActiveIndices(g.members), ActiveIndices(r.members);
    var mine := ActiveRowsOf(g.members, uid);
    assert ActiveMembersCount(g) == |before|;
    assert ActiveMembersCount(r) == |after|;
    forall i | i in after ensures i in before && i !in mine {
      assert g.members[i].userId != uid;
    }
    forall i | i in before && i !in mine ensures i in after {
      assert g.members[i].userId != uid;
    }
    assert after == before - mine;
    SubsetCardinality(mine, before);
    if IsActiveMember(g, uid) {
      var k :| 0 <= k < |g.members| && g.members[k].userId == uid && g.members[k].status == Active;
      assert k in mine;
    } else {
      assert mine == {};
    }
  }

  /** `removeMember` is idempotent. */
  lemma RemoveMemberIdempotent(g: Group, uid: ReaderId)
    ensures RemoveMember(RemoveMember(g, uid), uid) == RemoveMember(g, uid)
  {
    var r := RemoveMember(g, uid);
    assert RemoveMember(r, uid).members == r.members;
  }

  /** Membership history only moves forward: rows are kept in place with
      their reader, and no row becomes `active` again or leaves `left`. */
  predicate HistoryKept(before: seq<Member>, after: seq<Member>) {
    && |before| <= |after|
    && forall i | 0 <= i < |before| ::
      && after[i].userId == before[i].userId
      && (after[i].status == Active ==> before[i].status == Active)
      && (before[i].status == Left ==> after[i].status == Left)
  }

  lemma MembershipMovesForward(g: Group, uid: ReaderId, now: Millis)
    ensures HistoryKept(g.members, RemoveMember(g, uid).members)
    ensures AddMember(g, uid, now).Ok? ==> HistoryKept(g.members, AddMember(g, uid, now).value.members)
  {
  }
}

=== FILE: groups.dfy ===
/** The group operations of backend/controllers/groupController.js: manual
    creation, the message log, reading progress, leaving, and marking a
    weekly discussion done. Each loads a group, changes it, and saves it;
    a save that fails validation writes nothing. */
module Groups {
  import opened Base
  import opened Text
  import opened GroupModel
  import opened Store

  const MIN_MANUAL_MEMBERS := 3
  const DEFAULT_PAGE_LIMIT := 50
  const DEFAULT_PAGE_SKIP := 0

  /** The reader's first member row, as `members.find` locates it. */
  function MemberRow(g: Group, uid: ReaderId): Option<nat> {
    FirstIndex(g.members, (m: Member) => m.userId == uid)
  }

  /** The reader's first progress row. */
  function ProgressRow(g: Group, uid: ReaderId): Option<nat> {
    FirstIndex(g.progress, (p: Progress) => p.userId == uid)
  }

  /** The first discussion scheduled for `week`. */
  function WeekEntry(g: Group, week: int): Option<nat> {
    FirstIndex(g.schedule, (d: Discussion) => d.week == week)
  }

  /** Only group `gid` may change; books, readers and every other group are
      as before. */
  predicate OnlyGroupChanged(w: World, w': World, gid: GroupId) {
    && w'.books == w.books
    && w'.readers == w.readers
    && w'.groups.Keys == w.groups.Keys
    && forall h | h in w.groups && h != gid :: w'.groups[h] == w.groups[h]
  }

  // ---------------------------------------------------------------------
  // createGroup

  /** `createGroup`: the administrative bypass of matching. It needs a book
      id and at least three member ids, and an existing book. It saves an
      active group with one active row per id as given (duplicates and all,
      with no check against `maxMembers`) and four untitled weekly
      discussions, then rewires every stored member. The book's ledger is
      not touched. */
  function CreateGroup(w: World, bookId: Option<BookId>, memberIds: Option<seq<ReaderId>>, gid: GroupId, now: Millis)
    : (r: Result<World>)
    ensures bookId.None? || memberIds.None? || |memberIds.value| < MIN_MANUAL_MEMBERS ==> r == Err(BadRequest)
    ensures bookId.Some? && memberIds.Some? && |memberIds.value| >= MIN_MANUAL_MEMBERS && bookId.value !in w.books ==>
      r == Err(BookNotFound)
    ensures r.Ok? <==>
      bookId.Some? && memberIds.Some? && |memberIds.value| >= MIN_MANUAL_MEMBERS && bookId.value in w.books
    ensures r.Ok? ==>
      var ids, w' := memberIds.value, r.value;
      && w'.books == w.books
      && w'.groups.Keys == w.groups.Keys + {gid}
      && (forall h | h in w.groups && h != gid :: w'.groups[h] == w.groups[h])
      && var g := w'.groups[gid];
      && g.bookId == bookId.value && g.status == GroupActive
      && g.maxMembers == DEFAULT_MAX_MEMBERS
      && g.messages == [] && g.progress == []
      && g.endDate == now + DEFAULT_SPAN_DAYS * DAY_MS
      && |g.members| == |ids|
      && (forall i | 0 <= i < |ids| :: g.members[i].userId == ids[i] && g.members[i].status == Active)
      && |g.schedule| == 4
      && (forall i | 0 <= i < 4 ::
            && g.schedule[i].week == i + 1
            && g.schedule[i].scheduledDate == now + 7 * (i + 1) * DAY_MS
            && g.schedule[i].topic == ""
            && !g.schedule[i].completed && g.schedule[i].attendees == [])
    ensures r.Ok? ==>
      var b, ids, w' := bookId.value, memberIds.value, r.value;
      && w'.readers.Keys == w.readers.Keys
      && (forall id | id in w.readers && id in ids ::
            && w'.readers[id].currentGroup == Some(gid)
            && w'.readers[id].queue == Without(w.readers[id].queue, b)
            && (forall h :: h in w'.readers[id].groups <==> h in w.readers[id].groups || h == gid))
      && (forall id | id in w.readers && id !in ids :: w'.readers[id] == w.readers[id])
  {
    if bookId.None? || memberIds.None? || |memberIds.value| < MIN_MANUAL_MEMBERS then Err(BadRequest)
    else if bookId.value !in w.books then Err(BookNotFound)
    else
      var b, ids := bookId.value, memberIds.value;
      var g := Founded(b, ids, now, DEFAULT_TOPICS);
      Ok(World(w.books, Enroll(w.readers, ids, gid, b), w.groups[gid := g]))
  }

  /** Manual creation consumes queued readers without lowering the ledger:
      a consistent ledger becomes an overcount once a member who had the
      book queued is pulled into the group. */
  lemma CreateGroupSkipsLedger(w: World, b: BookId, ids: seq<ReaderId>, gid: GroupId, now: Millis, x: ReaderId)
    requires |ids| >= MIN_MANUAL_MEMBERS && b in w.books
    requires LedgerConsistent(w, b)
    requires x in ids && x in w.readers && b in w.readers[x].queue
    ensures var w' := CreateGroup(w, Some(b), Some(ids), gid, now).value;
      && w'.books[b].waitingReaders > |QueuedSet(w', b)|
  {
    var w' := CreateGroup(w, Some(b), Some(ids), gid, now).value;
    var readers := Enroll(w.readers, ids, gid, b);
    assert w'.readers == readers;
    var before, after := QueuedSet(w, b), QueuedSet(w', b);
    forall id | id in after ensures id in before && id != x {
      assert id in w.readers;
      if id !in ids {
        assert readers[id] == w.readers[id];
      }
    }
    SubsetCardinality(after, before - {x});
    SubsetCardinality({x}, before);
  }

  /** With distinct ids, manual creation rewires each stored member as
      matching does: the group becomes current, it is appended to the end of
      the history, and only the book leaves the queue. */
  lemma CreateGroupRewiresMembers(w: World, b: BookId, ids: seq<ReaderId>, gid: GroupId, now: Millis)
    requires |ids| >= MIN_MANUAL_MEMBERS && b in w.books && Distinct(ids)
    ensures var w' := CreateGroup(w, Some(b), Some(ids), gid, now).value;
      forall id | id in w.readers && id in ids ::
        && w'.readers[id].currentGroup == Some(gid)
        && w'.readers[id].groups == w.readers[id].groups + [gid]
        && w'.readers[id].queue == Without(w.readers[id].queue, b)
  {
    EnrollDistinct(w.readers, ids, gid, b);
  }

  /** Manual creation checks only the number of ids: three copies of one id
      make a three-row group with a single reader, and seven ids overfill
      the default cap of six. */
  lemma CreateGroupTrustsIds(w: World, b: BookId, x: ReaderId, gid: GroupId, now: Millis)
    requires b in w.books
    ensures var g := CreateGroup(w, Some(b), Some([x, x, x]), gid, now).value.groups[gid];
      |g.members| == 3 && !RowsUnique(g.members)
    ensures var g := CreateGroup(w, Some(b), Some([x, x, x, x, x, x, x]), gid, now).value.groups[gid];
      |g.members| > g.maxMembers
  {
    var g := CreateGroup(w, Some(b), Some([x, x, x]), gid, now).value.groups[gid];
    assert g.members[0].userId == g.members[1].userId;
  }

  /** A fresh manual group keeps the store well formed. */
  lemma CreateGroupKeepsStoreValid(w: World, bookId: Option<BookId>, memberIds: Option<seq<ReaderId>>, gid: GroupId, now: Millis)
    requires WorldValid(w) && gid !in w.groups
    requires CreateGroup(w, bookId, memberIds, gid, now).Ok?
    ensures WorldValid(CreateGroup(w, bookId, memberIds, gid, now).value)
  {
    var w' := CreateGroup(w, bookId, memberIds, gid, now).value;
    var b, ids := bookId.value, memberIds.value;
    var readers := Enroll(w.readers, ids, gid, b);
    var g := Founded(b, ids, now, DEFAULT_TOPICS);
    assert w' == World(w.books, readers, w.groups[gid := g]);
    EnrollKeepsReaders(w, w', ids, gid, b);
    assert GroupWellFormed(g);
  }

  /** Storing a well-formed replacement for an existing group keeps the
      store well formed. */
  lemma CommitKeepsStoreValid(w: World, gid: GroupId, g: Group)
    requires WorldValid(w) && gid in w.groups && GroupWellFormed(g)
    ensures Commit(w, gid, g).Ok? && WorldValid(Commit(w, gid, g).value)
  {
    var w' := Commit(w, gid, g).value;
    forall id | id in w'.readers ensures ReaderWellFormed(w', w'.readers[id]) {
      assert ReaderWellFormed(w, w.readers[id]);
    }
  }

  // ---------------------------------------------------------------------
  // sendMessage and getGroupMessages

  /** `sendMessage`. Text that is missing or all whitespace is refused
      before the group is looked up; then the group must exist and the
      caller must hold an `active` row. The trimmed text is appended as one
      new, unedited entry; earlier entries stay as they were. Text longer
      than 1000 characters after trimming fails validation. */
  function SendMessage(w: World, gid: GroupId, uid: ReaderId, message: Option<string>, now: Millis): (r: Result<World>)
    ensures message.None? || Blank(message.value) ==> r == Err(EmptyMessage)
    ensures message.Some? && !Blank(message.value) && gid !in w.groups ==> r == Err(GroupNotFound)
    ensures message.Some? && !Blank(message.value) && gid in w.groups && !IsActiveMember(w.groups[gid], uid) ==>
      r == Err(NotAMember)
    ensures message.Some? && gid in w.groups && |Trim(message.value)| > MAX_MESSAGE_LENGTH ==> r.Err?
    ensures (&& message.Some? && !Blank(message.value) && gid in w.groups && IsActiveMember(w.groups[gid], uid)
             && SchemaValid(w.groups[gid]) && |Trim(message.value)| <= MAX_MESSAGE_LENGTH) ==> r.Ok?
    ensures r.Ok? ==>
      && message.Some? && gid in w.groups && IsActiveMember(w.groups[gid], uid)
      && OnlyGroupChanged(w, r.value, gid)
      && var g, g' := w.groups[gid], r.value.groups[gid];
      && |g'.messages| == |g.messages| + 1
      && g'.messages[..|g.messages|] == g.messages
      && g'.messages[|g.messages|] == Message(uid, Trim(message.value), now, false)
      && g'.(messages := g.messages) == g
  {
    if message.None? then Err(EmptyMessage)
    else
      TrimEmptyIffBlank(message.value);
      if |Trim(message.value)| == 0 then Err(EmptyMessage)
      else if gid !in w.groups then Err(GroupNotFound)
      else if !IsActiveMember(w.groups[gid], uid) then Err(NotAMember)
      else
        var g := w.groups[gid];
        var entry := Message(uid, Trim(message.value), now, false);
        assert g.(messages := g.messages + [entry]).messages[|g.messages|] == entry;
        Commit(w, gid, g.(messages := g.messages + [entry]))
  }

  /** A posted message keeps the store well formed. */
  lemma SendMessageKeepsStoreValid(w: World, gid: GroupId, uid: ReaderId, message: Option<string>, now: Millis)
    requires WorldValid(w)
    requires SendMessage(w, gid, uid, message, now).Ok?
    ensures WorldValid(SendMessage(w, gid, uid, message, now).value)
  {
    var g' := SendMessage(w, gid, uid, message, now).value.groups[gid];
    assert GroupWellFormed(w.groups[gid]);
    CommitKeepsStoreValid(w, gid, g');
  }

  /** Where a `$slice: [skip, limit]` projection starts: a non-negative skip
      counts from the front (past the end gives nothing), a negative one
      counts back from the end and stops at the front. */
  function SliceStart(n: nat, skip: int): (s: nat)
    ensures s <= n
  {
    if skip >= 0 then Min(skip, n) else Max(0, n + skip)
  }

  /** `getGroupMessages`: a read-only, contiguous run of at most `limit`
      messages in insertion order (default: 50 from the front). A limit
      that is not positive is refused by the database. */
  function GetGroupMessages(w: World, gid: GroupId, skip: Option<int>, limit: Option<int>): (r: Result<seq<Message>>)
    ensures var lim := if limit.Some? then limit.value else DEFAULT_PAGE_LIMIT;
      && (lim <= 0 ==> r == Err(QueryRejected))
      && (lim > 0 && gid !in w.groups ==> r == Err(GroupNotFound))
      && (lim > 0 && gid in w.groups ==> r.Ok?)
      && (r.Ok? ==>
            var ms := w.groups[gid].messages;
            var sk := if skip.Some? then skip.value else DEFAULT_PAGE_SKIP;
            var s := SliceStart(|ms|, sk);
            && s + |r.value| <= |ms|
            && r.value == ms[s..s + |r.value|]
            && |r.value| == Min(lim, |ms| - s)
            && (sk >= 0 ==> s == Min(sk, |ms|))
            && (sk < 0 ==> s == Max(0, |ms| + sk)))
  {
    var lim := if limit.Some? then limit.value else DEFAULT_PAGE_LIMIT;
    var sk := if skip.Some? then skip.value else DEFAULT_PAGE_SKIP;
    if lim <= 0 then Err(QueryRejected)
    else if gid !in w.groups then Err(GroupNotFound)
    else
      var ms := w.groups[gid].messages;
      var s := SliceStart(|ms|, sk);
      Ok(ms[s..s + Min(lim, |ms| - s)])
  }

  /** Two adjacent pages read back to back are the one page that spans
      both. */
  lemma {:induction false} PagesConcatenate(w: World, gid: GroupId, skip: nat, a: nat, b: nat)
    requires gid in w.groups && a > 0 && b > 0
    ensures GetGroupMessages(w, gid, Some(skip), Some(a)).value
      + GetGroupMessages(w, gid, Some(skip + a), Some(b)).value
      == GetGroupMessages(w, gid, Some(skip), Some(a + b)).value
  {
    var ms := w.groups[gid].messages;
    var n := |ms|;
    var s1 := Min(skip, n);
    var e1 := s1 + Min(a, n - s1);
    var s2 := Min(skip + a, n);
    assert s2 == e1;
    assert ms[s1..e1] + ms[e1..s2 + Min(b, n - s2)] == ms[s1..s1 + Min(a + b, n - s1)];
  }

  /** Right after a post, the last message of the log is the post. */
  lemma LastPageShowsPost(w: World, gid: GroupId, uid: ReaderId, message: Option<string>, now: Millis)
    requires SendMessage(w, gid, uid, message, now).Ok?
    ensures GetGroupMessages(SendMessage(w, gid, uid, message, now).value, gid, Some(-1), Some(1))
      == Ok([Message(uid, Trim(message.value), now, false)])
  {
    var w' := SendMessage(w, gid, uid, message, now).value;
    var ms := w'.groups[gid].messages;
    var n := |w.groups[gid].messages|;
    assert |ms| == n + 1 && SliceStart(|ms|, -1) == n;
    assert ms[n..n + 1] == [ms[n]];
  }

  // ---------------------------------------------------------------------
  // updateReadingProgress

  /** JavaScript's `x || fallback` for a numeric field that may be absent:
      a missing value and 0 both fall back. */
  function OrElse(x: Option<int>, fallback: int): int {
    if x.Some? && x.value != 0 then x.value else fallback
  }

  /** `updateReadingProgress`. There is no membership check. A reader with
      a row has it updated in place, a falsy page or percentage keeping the
      old value; a reader without one gets a row appended, falsy values
      becoming 0. A percentage outside 0..100 fails validation and nothing
      is written; on a valid group an absent or in-range percentage always
      succeeds. */
  function UpdateReadingProgress(w: World, gid: GroupId, uid: ReaderId, currentPage: Option<int>, percentage: Option<int>, now: Millis)
    : (r: Result<World>)
    ensures gid !in w.groups ==> r == Err(GroupNotFound)
    ensures r.Err? && gid in w.groups ==> r.error == ValidationError
    ensures (&& gid in w.groups && SchemaValid(w.groups[gid])
             && (percentage.None? || 0 <= percentage.value <= MAX_PERCENTAGE)) ==> r.Ok?
    ensures r.Ok? ==>
      && gid in w.groups
      && OnlyGroupChanged(w, r.value, gid)
      && var g, g' := w.groups[gid], r.value.groups[gid];
      && g'.(progress := g.progress) == g
      && match ProgressRow(g, uid)
         case Some(k) =>
           && |g'.progress| == |g.progress|
           && g'.progress[k] == Progress(uid, OrElse(currentPage, g.progress[k].currentPage),
                                         OrElse(percentage, g.progress[k].percentage), now)
           && (forall j | 0 <= j < |g.progress| && j != k :: g'.progress[j] == g.progress[j])
         case None =>
           && |g'.progress| == |g.progress| + 1
           && g'.progress[..|g.progress|] == g.progress
           && g'.progress[|g.progress|] == Progress(uid, OrElse(currentPage, 0), OrElse(percentage, 0), now)
  {
    if gid !in w.groups then Err(GroupNotFound)
    else
      var g := w.groups[gid];
      match ProgressRow(g, uid)
      case Some(k) =>
        var prev := g.progress[k];
        var row := Progress(uid, OrElse(currentPage, prev.currentPage), OrElse(percentage, prev.percentage), now);
        Commit(w, gid, g.(progress := g.progress[k := row]))
      case None =>
        var row := Progress(uid, OrElse(currentPage, 0), OrElse(percentage, 0), now);
        assert (g.progress + [row])[..|g.progress|] == g.progress;
        Commit(w, gid, g.(progress := g.progress + [row]))
  }

  /** Progress stays one row per reader, and afterwards the caller has a
      row: an update never adds a second row for the same reader. */
  lemma ProgressStaysUnique(w: World, gid: GroupId, uid: ReaderId, currentPage: Option<int>, percentage: Option<int>, now: Millis)
    requires UpdateReadingProgress(w, gid, uid, currentPage, percentage, now).Ok?
    requires ProgressUnique(w.groups[gid].progress)
    ensures var g' := UpdateReadingProgress(w, gid, uid, currentPage, percentage, now).value.groups[gid];
      && ProgressUnique(g'.progress)
      && ProgressRow(g', uid).Some?
  {
    var g := w.groups[gid];
    var g' := UpdateReadingProgress(w, gid, uid, currentPage, percentage, now).value.groups[gid];
    match ProgressRow(g, uid)
    case Some(k) =>
      assert g'.progress[k].userId == uid;
    case None =>
      assert g'.progress[|g.progress|].userId == uid;
  }

  /** On an existing row a missing or zero percentage keeps the stored
      one; on a new row it becomes 0. The same holds for the page. */
  lemma FalsyKeepsProgress(w: World, gid: GroupId, uid: ReaderId, now: Millis)
    requires gid in w.groups
    requires UpdateReadingProgress(w, gid, uid, Some(0), None, now).Ok?
    ensures var g, g' := w.groups[gid], UpdateReadingProgress(w, gid, uid, Some(0), None, now).value.groups[gid];
      match ProgressRow(g, uid)
      case Some(k) =>
        g'.progress[k].currentPage == g.progress[k].currentPage && g'.progress[k].percentage == g.progress[k].percentage
      case None =>
        g'.progress[|g.progress|].currentPage == 0 && g'.progress[|g.progress|].percentage == 0
  {
  }

  /** A percentage outside 0..100 is refused, not clamped: 150 and -10 both
      fail, leaving the store as it was. */
  lemma OutOfRangePercentageRejected(w: World, gid: GroupId, uid: ReaderId, currentPage: Option<int>, p: int, now: Millis)
    requires gid in w.groups
    requires p < 0 || p > MAX_PERCENTAGE
    ensures UpdateReadingProgress(w, gid, uid, currentPage, Some(p), now) == Err(ValidationError)
  {
    var g := w.groups[gid];
    match ProgressRow(g, uid)
    case Some(k) =>
      var g' := g.(progress := g.progress[k := Progress(uid, OrElse(currentPage, g.progress[k].currentPage), p, now)]);
      assert !ValidProgress(g'.progress[k]);
    case None =>
      var g' := g.(progress := g.progress + [Progress(uid, OrElse(currentPage, 0), p, now)]);
      assert !ValidProgress(g'.progress[|g.progress|]);
  }

  /** Anyone may record progress: on a valid group with an absent or
      in-range percentage, a reader with no member row at all succeeds and
      afterwards has a progress row, whether or not one existed before. */
  lemma ProgressNeedsNoMembership(w: World, gid: GroupId, uid: ReaderId, currentPage: Option<int>, percentage: Option<int>, now: Millis)
    requires gid in w.groups && SchemaValid(w.groups[gid]) && !HasRow(w.groups[gid], uid)
    requires percentage.None? || 0 <= percentage.value <= MAX_PERCENTAGE
    ensures var r := UpdateReadingProgress(w, gid, uid, currentPage, percentage, now);
      r.Ok? && ProgressRow(r.value.groups[gid], uid).Some?
  {
    var g := w.groups[gid];
    var g' := UpdateReadingProgress(w, gid, uid, currentPage, percentage, now).value.groups[gid];
    match ProgressRow(g, uid)
    case Some(k) =>
      assert g'.progress[k].userId == uid;
    case None =>
      assert g'.progress[|g.progress|].userId == uid;
  }

  /** A progress update keeps the store well formed. */
  lemma UpdateProgressKeepsStoreValid(w: World, gid: GroupId, uid: ReaderId, currentPage: Option<int>, percentage: Option<int>, now: Millis)
    requires WorldValid(w)
    requires UpdateReadingProgress(w, gid, uid, currentPage, percentage, now).Ok?
    ensures WorldValid(UpdateReadingProgress(w, gid, uid, currentPage, percentage, now).value)
  {
    var g' := UpdateReadingProgress(w, gid, uid, currentPage, percentage, now).value.groups[gid];
    assert GroupWellFormed(w.groups[gid]);
    ProgressStaysUnique(w, gid, uid, currentPage, percentage, now);
    CommitKeepsStoreValid(w, gid, g');
  }

  // ---------------------------------------------------------------------
  // leaveGroup

  /** `leaveGroup`. The caller's first row, whatever its status, becomes
      `left`; no row is removed and the group keeps its status, however few
      active members remain. The caller's `currentGroup` is then cleared,
      whichever group it pointed at. */
  function LeaveGroup(w: World, gid: GroupId, uid: ReaderId): (r: Result<World>)
    ensures gid !in w.groups ==> r == Err(GroupNotFound)
    ensures gid in w.groups && !HasRow(w.groups[gid], uid) ==> r == Err(NotAMember)
    ensures gid in w.groups && HasRow(w.groups[gid], uid) && SchemaValid(w.groups[gid]) ==> r.Ok?
    ensures r.Ok? ==>
      && gid in w.groups && HasRow(w.groups[gid], uid)
      && r.value.groups.Keys == w.groups.Keys
      && var g, w' := w.groups[gid], r.value;
      && var g' := w'.groups[gid];
      && w'.books == w.books
      && (forall h | h in w.groups && h != gid :: w'.groups[h] == w.groups[h])
      && g'.(members := g.members) == g
      && |g'.members| == |g.members|
      && MemberRow(g, uid).Some?
      && var k := MemberRow(g, uid).value;
      && g'.members[k] == g.members[k].(status := Left)
      && (forall j | 0 <= j < |g.members| && j != k :: g'.members[j] == g.members[j])
      && w'.readers.Keys == w.readers.Keys
      && (uid in w.readers ==> w'.readers[uid] == w.readers[uid].(currentGroup := None))
      && (forall id | id in w.readers && id != uid :: w'.readers[id] == w.readers[id])
  {
    if gid !in w.groups then Err(GroupNotFound)
    else
      var g := w.groups[gid];
      match MemberRow(g, uid)
      case None => Err(NotAMember)
      case Some(k) =>
        var saved := Commit(w, gid, g.(members := g.members[k := g.members[k].(status := Left)]));
        if saved.Err? then saved
        else
          var w' := saved.value;
          if uid in w'.readers then Ok(w'.(readers := w'.readers[uid := w'.readers[uid].(currentGroup := None)]))
          else Ok(w')
  }

  /** Leaving keeps the membership history: rows stay in place, none
      becomes active again, and the active count drops by one exactly when
      the row was active. */
  lemma LeaveKeepsHistory(w: World, gid: GroupId, uid: ReaderId)
    requires LeaveGroup(w, gid, uid).Ok?
    ensures var g, g' := w.groups[gid], LeaveGroup(w, gid, uid).value.groups[gid];
      && HistoryKept(g.members, g'.members)
      && g'.status == g.status
      && ActiveMembersCount(g') == ActiveMembersCount(g) - (if g.members[MemberRow(g, uid).value].status == Active then 1 else 0)
  {
    var g, g' := w.groups[gid], LeaveGroup(w, gid, uid).value.groups[gid];
    var k := MemberRow(g, uid).value;
    CountActiveIsActiveRows(g.members);
    CountActiveIsActiveRows(g'.members);
    var before, after := ActiveIndices(g.members), ActiveIndices(g'.members);
    assert after == before - {k};
  }

  /** A reader who left (and had only the one row) can no longer post. */
  lemma LeaverCannotPost(w: World, gid: GroupId, uid: ReaderId, message: Option<string>, now: Millis)
    requires LeaveGroup(w, gid, uid).Ok?
    requires RowsUnique(w.groups[gid].members)
    ensures SendMessage(LeaveGroup(w, gid, uid).value, gid, uid, message, now).Err?
  {
    var g, g' := w.groups[gid], LeaveGroup(w, gid, uid).value.groups[gid];
    var k := MemberRow(g, uid).value;
    assert forall j | 0 <= j < |g'.members| && g'.members[j].userId == uid :: j == k;
    assert !IsActiveMember(g', uid);
  }

  /** With one row per reader, the member rows `leaveGroup` saves are the
      ones Group.js's `removeMember` computes. */
  lemma LeaveAgreesWithRemoveMember(w: World, gid: GroupId, uid: ReaderId)
    requires LeaveGroup(w, gid, uid).Ok?
    requires RowsUnique(w.groups[gid].members)
    ensures LeaveGroup(w, gid, uid).value.groups[gid] == RemoveMember(w.groups[gid], uid)
  {
    var g, g' := w.groups[gid], LeaveGroup(w, gid, uid).value.groups[gid];
    var k := MemberRow(g, uid).value;
    var r := RemoveMember(g, uid);
    forall j | 0 <= j < |g.members| ensures g'.members[j] == r.members[j] {
      if j != k {
        assert g.members[j].userId != uid;
      }
    }
    assert g'.members == r.members;
  }

  /** Leaving keeps the store well formed. */
  lemma LeaveKeepsStoreValid(w: World, gid: GroupId, uid: ReaderId)
    requires WorldValid(w)
    requires LeaveGroup(w, gid, uid).Ok?
    ensures WorldValid(LeaveGroup(w, gid, uid).value)
  {
    var w' := LeaveGroup(w, gid, uid).value;
    assert GroupWellFormed(w.groups[gid]);
    assert GroupWellFormed(w'.groups[gid]);
    forall id | id in w'.readers ensures ReaderWellFormed(w', w'.readers[id]) {
      assert ReaderWellFormed(w, w.readers[id]);
    }
  }

  // ---------------------------------------------------------------------
  // completeDiscussion

  /** `completeDiscussion`. The first discussion scheduled for `week` is
      marked completed and the caller joins its attendees unless already
      there. No membership check is made. */
  function CompleteDiscussion(w: World, gid: GroupId, uid: ReaderId, week: int): (r: Result<World>)
    ensures gid !in w.groups ==> r == Err(GroupNotFound)
    ensures gid in w.groups && WeekEntry(w.groups[gid], week).None? ==> r == Err(DiscussionNotFound)
    ensures gid in w.groups && WeekEntry(w.groups[gid], week).Some? && SchemaValid(w.groups[gid]) ==> r.Ok?
    ensures r.Ok? ==>
      && gid in w.groups && WeekEntry(w.groups[gid], week).Some?
      && OnlyGroupChanged(w, r.value, gid)
      && var g, g' := w.groups[gid], r.value.groups[gid];
      && var k := WeekEntry(g, week).value;
      && g'.(schedule := g.schedule) == g
      && |g'.schedule| == |g.schedule|
      && (forall j | 0 <= j < |g.schedule| && j != k :: g'.schedule[j] == g.schedule[j])
      && g'.schedule[k] == g.schedule[k].(completed := true, attendees := g'.schedule[k].attendees)
      && g'.schedule[k].completed
      && g'.schedule[k].week == week
      && uid in g'.schedule[k].attendees
      && |g'.schedule[k].attendees| == |g.schedule[k].attendees| + (if uid in g.schedule[k].attendees then 0 else 1)
      && g'.schedule[k].attendees[..|g.schedule[k].attendees|] == g.schedule[k].attendees
  {
    if gid !in w.groups then Err(GroupNotFound)
    else
      var g := w.groups[gid];
      match WeekEntry(g, week)
      case None => Err(DiscussionNotFound)
      case Some(k) =>
        var d := g.schedule[k];
        var attendees := if uid in d.attendees then d.attendees else d.attendees + [uid];
        Commit(w, gid, g.(schedule := g.schedule[k := d.(completed := true, attendees := attendees)]))
  }

  /** Marking a discussion done twice is marking it once. */
  lemma CompleteDiscussionIdempotent(w: World, gid: GroupId, uid: ReaderId, week: int)
    requires CompleteDiscussion(w, gid, uid, week).Ok?
    ensures var w1 := CompleteDiscussion(w, gid, uid, week);
      CompleteDiscussion(w1.value, gid, uid, week) == w1
  {
    var w1 := CompleteDiscussion(w, gid, uid, week).value;
    var g, g1 := w.groups[gid], w1.groups[gid];
    var k := WeekEntry(g, week).value;
    assert WeekEntry(g1, week) == Some(k);
    var d := g1.schedule[k];
    assert g1.(schedule := g1.schedule[k := d.(completed := true, attendees := d.attendees)]) == g1;
    assert w1.(groups := w1.groups[gid := g1]) == w1;
  }

  /** Attendee lists stay free of repeats, so the store stays well formed. */
  lemma CompleteDiscussionKeepsStoreValid(w: World, gid: GroupId, uid: ReaderId, week: int)
    requires WorldValid(w)
    requires CompleteDiscussion(w, gid, uid, week).Ok?
    ensures WorldValid(CompleteDiscussion(w, gid, uid, week).value)
  {
    var g, g' := w.groups[gid], CompleteDiscussion(w, gid, uid, week).value.groups[gid];
    var k := WeekEntry(g, week).value;
    assert GroupWellFormed(g);
    assert Distinct(g.schedule[k].attendees);
    assert Distinct(g'.schedule[k].attendees);
    assert AttendeesUnique(g'.schedule);
    CommitKeepsStoreValid(w, gid, g');
  }
}

=== FILE: matching.dfy ===
/** The matching engine: `checkAndCreateGroup` of
    backend/controllers/bookController.js. It picks up to six readers who
    have the book queued and no current group, and when at least three
    qualify it forms an active group, rewires the members and settles the
    book's ledger. */
module Matching {
  import opened Base
  import opened GroupModel
  import opened Store

  const FORMATION_THRESHOLD := 3
  const INTAKE_CAP := 6

  /** The filter of the reader query: the book is queued and there is no
      current group. */
  predicate IsEligible(w: World, id: ReaderId, b: BookId) {
    id in w.readers && b in w.readers[id].queue && w.readers[id].currentGroup.None?
  }

  function EligibleSet(w: World, b: BookId): set<ReaderId> {
    set id | id in w.readers && IsEligible(w, id, b)
  }

  /** The readers the query matches, in the order the scan yields them. */
  function Eligible(w: World, b: BookId, order: seq<ReaderId>): (e: seq<ReaderId>)
    ensures forall id :: id in e <==> id in order && IsEligible(w, id, b)
    ensures Distinct(order) ==> Distinct(e)
    ensures |e| <= |order|
  {
    if |order| == 0 then []
    else
      var init := order[..|order| - 1];
      var last := order[|order| - 1];
      var rest := Eligible(w, b, init);
      assert forall id :: id in order <==> id in init || id == last;
      assert Distinct(order) ==> Distinct(init) && last !in init;
      if IsEligible(w, last, b) then rest + [last] else rest
  }

  /** The scan keeps the readers' order: the matches in `a + b` are the
      matches in `a` followed by those in `b`. */
  lemma {:induction false} EligibleConcat(w: World, b: BookId, a: seq<ReaderId>, c: seq<ReaderId>)
    ensures Eligible(w, b, a + c) == Eligible(w, b, a) + Eligible(w, b, c)
    decreases |c|
  {
    if |c| > 0 {
      var n := |c| - 1;
      assert (a + c)[..|a + c| - 1] == a + c[..n];
      assert (a + c)[|a + c| - 1] == c[n];
      EligibleConcat(w, b, a, c[..n]);
    } else {
      assert a + c == a;
    }
  }

  /** A single reader matches on their own exactly when eligible. */
  lemma EligibleSingle(w: World, b: BookId, id: ReaderId)
    ensures Eligible(w, b, [id]) == if IsEligible(w, id, b) then [id] else []
  {
    assert [id][..0] == [];
  }

  /** The query's `.limit(6)`: the first six matches. */
  function Select(w: World, b: BookId, order: seq<ReaderId>): (sel: seq<ReaderId>)
    ensures |sel| == Min(INTAKE_CAP, |Eligible(w, b, order)|)
    ensures sel == Eligible(w, b, order)[..|sel|]
    ensures forall id | id in sel :: IsEligible(w, id, b)
    ensures Distinct(order) ==> Distinct(sel)
  {
    var e := Eligible(w, b, order);
    if |e| <= INTAKE_CAP then e else e[..INTAKE_CAP]
  }

  /** However the scan orders the readers, it finds every eligible one. */
  lemma EligibleCount(w: World, b: BookId, order: seq<ReaderId>)
    requires IsEnumeration(order, w)
    ensures |Eligible(w, b, order)| == |EligibleSet(w, b)|
  {
    var e := Eligible(w, b, order);
    DistinctCardinality(e);
    assert Elements(e) == EligibleSet(w, b);
  }

  /** An eligible reader is passed over only when the intake is full. */
  lemma PassedOverOnlyWhenFull(w: World, b: BookId, order: seq<ReaderId>, id: ReaderId)
    requires IsEnumeration(order, w)
    requires IsEligible(w, id, b) && id !in Select(w, b, order)
    ensures |Select(w, b, order)| == INTAKE_CAP
  {
    var e := Eligible(w, b, order);
    assert id in e;
  }

  datatype Matched = Matched(world: World, formed: Option<Group>)

  /** The book after formation: `waitingReaders` drops by the member count,
      clamped at zero, and `totalReads` rises by one. */
  function Drain(book: Book, n: nat): Book {
    Book(if book.waitingReaders >= n then book.waitingReaders - n else 0, book.totalReads + 1)
  }

  /** `checkAndCreateGroup(b)`; `gid` is the id the new group receives.
      Without a group nothing changes. With one, the group is stored under
      `gid`; `b`'s `waitingReaders` becomes the old count minus the member
      count, floored at zero, and its `totalReads` rises by one; no other
      book changes. */
  function Match(w: World, b: BookId, order: seq<ReaderId>, gid: GroupId, now: Millis): (m: Matched)
    ensures m.formed.None? ==> m.world == w
    ensures m.formed.Some? ==> m.world.groups == w.groups[gid := m.formed.value]
    ensures m.world.readers.Keys == w.readers.Keys && m.world.books.Keys == w.books.Keys
    ensures m.formed.Some? && b in w.books ==>
      && m.world.books[b].waitingReaders == Max(0, w.books[b].waitingReaders - |m.formed.value.members|)
      && m.world.books[b].totalReads == w.books[b].totalReads + 1
    ensures forall c | c in w.books && c != b :: m.world.books[c] == w.books[c]
  {
    var sel := Select(w, b, order);
    if |sel| < FORMATION_THRESHOLD then Matched(w, None)
    else
      var g := Founded(b, sel, now, FORMATION_TOPICS);
      var books := if b in w.books then w.books[b := Drain(w.books[b], |sel|)] else w.books;
      Matched(World(books, Enroll(w.readers, sel, gid, b), w.groups[gid := g]), Some(g))
  }

  /** A group forms exactly when at least three readers are eligible. */
  lemma MatchThreshold(w: World, b: BookId, order: seq<ReaderId>, gid: GroupId, now: Millis)
    requires IsEnumeration(order, w)
    ensures Match(w, b, order, gid, now).formed.Some? <==> |EligibleSet(w, b)| >= FORMATION_THRESHOLD
  {
    EligibleCount(w, b, order);
  }

  /** The formed group: between three and six distinct, active members,
      every one of them eligible before the call; status active; four
      weekly discussions at +7, +14, +21 and +28 days with the fixed topics,
      none completed. */
  lemma MatchGroupShape(w: World, b: BookId, order: seq<ReaderId>, gid: GroupId, now: Millis)
    requires IsEnumeration(order, w)
    requires Match(w, b, order, gid, now).formed.Some?
    ensures var g := Match(w, b, order, gid, now).formed.value;
      && g.bookId == b && g.status == GroupActive
      && FORMATION_THRESHOLD <= |g.members| <= INTAKE_CAP
      && |g.members| == Min(INTAKE_CAP, |EligibleSet(w, b)|)
      && g.maxMembers == DEFAULT_MAX_MEMBERS
      && g.endDate == now + DEFAULT_SPAN_DAYS * DAY_MS
      && |g.members| <= g.maxMembers
      && RowsUnique(g.members)
      && (forall i | 0 <= i < |g.members| ::
            g.members[i].status == Active && g.members[i].joinedAt == now
            && IsEligible(w, g.members[i].userId, b))
      && ActiveMembersCount(g) == |g.members|
      && |g.schedule| == 4
      && (forall i | 0 <= i < 4 ::
            && g.schedule[i].week == i + 1
            && g.schedule[i].scheduledDate == now + 7 * (i + 1) * DAY_MS
            && g.schedule[i].topic == FORMATION_TOPICS[i]
            && !g.schedule[i].completed && g.schedule[i].attendees == [])
      && g.messages == [] && g.progress == []
      && SchemaValid(g)
  {
    var sel := Select(w, b, order);
    assert Match(w, b, order, gid, now).formed.value == Founded(b, sel, now, FORMATION_TOPICS);
    FoundedRows(b, sel, now, FORMATION_TOPICS);
    EligibleCount(w, b, order);
    assert forall i | 0 <= i < |sel| :: sel[i] in sel;
  }

  /** Every selected reader joins the group: `currentGroup` is the group,
      the group is appended to `groups`, the book leaves the queue. Every
      other reader is untouched. */
  lemma MatchRewiresMembers(w: World, b: BookId, order: seq<ReaderId>, gid: GroupId, now: Millis)
    requires IsEnumeration(order, w)
    requires Match(w, b, order, gid, now).formed.Some?
    ensures var m := Match(w, b, order, gid, now);
      forall id | id in w.readers ::
        && (HasRow(m.formed.value, id) ==>
              && m.world.readers[id].currentGroup == Some(gid)
              && m.world.readers[id].groups == w.readers[id].groups + [gid]
              && m.world.readers[id].queue == Without(w.readers[id].queue, b))
        && (!HasRow(m.formed.value, id) ==> m.world.readers[id] == w.readers[id])
  {
    var m := Match(w, b, order, gid, now);
    var sel := Select(w, b, order);
    EnrollDistinct(w.readers, sel, gid, b);
    forall id | id in w.readers
      ensures HasRow(m.formed.value, id) <==> id in sel
    {
      if id in sel {
        var k :| 0 <= k < |sel| && sel[k] == id;
        assert m.formed.value.members[k].userId == id;
      }
    }
  }

  /** When no more than six readers are eligible, the group takes every
      one of them. */
  lemma MatchTakesAllWhenFew(w: World, b: BookId, order: seq<ReaderId>, gid: GroupId, now: Millis)
    requires IsEnumeration(order, w)
    requires FORMATION_THRESHOLD <= |EligibleSet(w, b)| <= INTAKE_CAP
    ensures var m := Match(w, b, order, gid, now);
      && m.formed.Some?
      && |m.formed.value.members| == |EligibleSet(w, b)|
      && forall id | id in EligibleSet(w, b) :: HasRow(m.formed.value, id)
  {
    EligibleCount(w, b, order);
    var g := Match(w, b, order, gid, now).formed.value;
    var sel := Select(w, b, order);
    assert sel == Eligible(w, b, order);
    forall id | id in EligibleSet(w, b) ensures HasRow(g, id) {
      var k :| 0 <= k < |sel| && sel[k] == id;
      assert g.members[k].userId == id;
    }
  }

  /** Enrolling distinct readers who all queued `b` takes exactly them out
      of `b`'s queue set and leaves every other book's queue set alone. */
  lemma {:induction false} EnrollQueuedSets(w: World, w': World, sel: seq<ReaderId>, gid: GroupId, b: BookId)
    requires Distinct(sel)
    requires w'.readers == Enroll(w.readers, sel, gid, b)
    ensures QueuedSet(w', b) == QueuedSet(w, b) - Elements(sel)
    ensures forall c | c != b :: QueuedSet(w', c) == QueuedSet(w, c)
  {
    EnrollDistinct(w.readers, sel, gid, b);
    forall id ensures id in QueuedSet(w', b) <==> id in QueuedSet(w, b) - Elements(sel) {
      if id in w.readers && id in sel {
        assert w'.readers[id] == Join(w.readers[id], gid, b);
      }
    }
    forall c | c != b ensures QueuedSet(w', c) == QueuedSet(w, c) {
      forall id ensures id in QueuedSet(w', c) <==> id in QueuedSet(w, c) {
        if id in w.readers && id in sel {
          assert w'.readers[id] == Join(w.readers[id], gid, b);
        }
      }
    }
  }

  /** Matching keeps every book's ledger consistent with the queues; when
      the ledger was consistent the clamp never fires and the count falls by
      exactly the member count. */
  lemma MatchKeepsLedger(w: World, b: BookId, order: seq<ReaderId>, gid: GroupId, now: Millis, c: BookId)
    requires IsEnumeration(order, w)
    requires LedgerConsistent(w, c)
    ensures LedgerConsistent(Match(w, b, order, gid, now).world, c)
    ensures var m := Match(w, b, order, gid, now);
      c == b && m.formed.Some? ==>
        m.world.books[b].waitingReaders == w.books[b].waitingReaders - |m.formed.value.members|
  {
    var m := Match(w, b, order, gid, now);
    if m.formed.Some? {
      var sel := Select(w, b, order);
      EnrollQueuedSets(w, m.world, sel, gid, b);
      if c == b {
        assert Elements(sel) <= QueuedSet(w, b);
        SubsetCardinality(Elements(sel), QueuedSet(w, b));
        DistinctCardinality(sel);
      }
    }
  }

  /** Matching with a fresh group id keeps the store well formed. */
  lemma MatchKeepsStoreValid(w: World, b: BookId, order: seq<ReaderId>, gid: GroupId, now: Millis)
    requires IsEnumeration(order, w) && gid !in w.groups
    requires WorldValid(w)
    ensures WorldValid(Match(w, b, order, gid, now).world)
  {
    var sel := Select(w, b, order);
    if |sel| >= FORMATION_THRESHOLD {
      var w' := Match(w, b, order, gid, now).world;
      var g := Founded(b, sel, now, FORMATION_TOPICS);
      assert w'.readers == Enroll(w.readers, sel, gid, b);
      assert w'.groups == w.groups[gid := g];
      EnrollKeepsReaders(w, w', sel, gid, b);
      assert GroupWellFormed(g);
      forall h | h in w'.groups ensures GroupWellFormed(w'.groups[h]) {
        if h != gid {
          assert GroupWellFormed(w.groups[h]);
        }
      }
    }
  }
}

=== FILE: queueing.dfy ===
/** The queue store and demand ledger: `addToQueue` and `removeFromQueue`
    of backend/controllers/bookController.js. A successful enqueue that
    lifts a book's demand to three or more runs the matching engine. */
module Queueing {
  import opened Base
  import opened GroupModel
  import opened Store
  import opened Matching

  /** The new state and the `waitingReaders` count the response reports. */
  datatype Enqueued = Enqueued(world: World, waitingReaders: nat)

  /** The book joins the end of the reader's queue and its counter rises. */
  function Enqueue(w: World, uid: ReaderId, b: BookId): (w': World)
    requires uid in w.readers && b in w.books
    ensures w'.readers.Keys == w.readers.Keys && w'.books.Keys == w.books.Keys && w'.groups == w.groups
    ensures w'.readers == w.readers[uid := w.readers[uid].(queue := w.readers[uid].queue + [b])]
    ensures w'.books == w.books[b := w.books[b].(waitingReaders := w.books[b].waitingReaders + 1)]
  {
    var r := w.readers[uid];
    var book := w.books[b];
    w.(readers := w.readers[uid := r.(queue := r.queue + [b])],
       books := w.books[b := book.(waitingReaders := book.waitingReaders + 1)])
  }

  /** `addToQueue`. The checks run in the source's order: the book id is
      given, the book exists, the reader exists, the book is not queued yet.
      A failure returns no new state. On success the reported count is the
      incremented one, and only a count of three or more runs matching,
      which adds at most the one group `gid`. */
  function AddToQueue(w: World, uid: ReaderId, bookId: Option<BookId>, order: seq<ReaderId>, gid: GroupId, now: Millis)
    : (r: Result<Enqueued>)
    ensures r.Ok? <==>
      bookId.Some? && bookId.value in w.books && uid in w.readers && bookId.value !in w.readers[uid].queue
    ensures bookId.None? ==> r == Err(BadRequest)
    ensures bookId.Some? && bookId.value !in w.books ==> r == Err(BookNotFound)
    ensures bookId.Some? && bookId.value in w.books && uid !in w.readers ==> r == Err(ReaderNotFound)
    ensures bookId.Some? && bookId.value in w.books && uid in w.readers && bookId.value in w.readers[uid].queue ==>
      r == Err(AlreadyQueued)
    ensures r.Ok? ==> r.value.waitingReaders == w.books[bookId.value].waitingReaders + 1
    ensures r.Ok? ==> r.value.world.groups.Keys <= w.groups.Keys + {gid}
    ensures r.Ok? ==> r.value.world.readers.Keys == w.readers.Keys && r.value.world.books.Keys == w.books.Keys
    ensures r.Ok? && gid !in w.groups && gid !in r.value.world.groups ==>
      r.value.world == Enqueue(w, uid, bookId.value)
    ensures r.Ok? && r.value.waitingReaders < FORMATION_THRESHOLD ==>
      var b, w' := bookId.value, r.value.world;
      && w'.groups == w.groups
      && w'.readers[uid] == w.readers[uid].(queue := w.readers[uid].queue + [b])
      && w'.books[b].waitingReaders == r.value.waitingReaders
      && (forall id | id in w.readers && id != uid :: w'.readers[id] == w.readers[id])
      && w'.books[b].totalReads == w.books[b].totalReads
      && (forall c | c in w.books && c != b :: w'.books[c] == w.books[c])
  {
    if bookId.None? then Err(BadRequest)
    else if bookId.value !in w.books then Err(BookNotFound)
    else if uid !in w.readers then Err(ReaderNotFound)
    else if bookId.value in w.readers[uid].queue then Err(AlreadyQueued)
    else
      var b := bookId.value;
      var queued := Enqueue(w, uid, b);
      var count := queued.books[b].waitingReaders;
      if count >= FORMATION_THRESHOLD then Ok(Enqueued(Match(queued, b, order, gid, now).world, count))
      else Ok(Enqueued(queued, count))
  }

  /** How the enqueue step moves the queue sets and the eligible set. */
  lemma EnqueueSets(w: World, uid: ReaderId, b: BookId, order: seq<ReaderId>)
    requires uid in w.readers && b in w.books && b !in w.readers[uid].queue
    ensures var w1 := Enqueue(w, uid, b);
      && uid !in QueuedSet(w, b)
      && QueuedSet(w1, b) == QueuedSet(w, b) + {uid}
      && (forall c | c != b :: QueuedSet(w1, c) == QueuedSet(w, c))
      && EligibleSet(w1, b) == EligibleSet(w, b) + (if w.readers[uid].currentGroup.None? then {uid} else {})
      && (IsEnumeration(order, w) ==> IsEnumeration(order, w1))
  {
    var w1 := Enqueue(w, uid, b);
    assert forall c :: c in w1.readers[uid].queue <==> c in w.readers[uid].queue || c == b;
    forall c | c != b ensures QueuedSet(w1, c) == QueuedSet(w, c) {
      assert forall id | id in w.readers :: c in w1.readers[id].queue <==> c in w.readers[id].queue;
    }
  }

  /** Whether an enqueue forms a group depends only on the new count and
      on how many readers are eligible once the caller has queued the book. */
  lemma AddToQueueFormsGroup(w: World, uid: ReaderId, b: BookId, order: seq<ReaderId>, gid: GroupId, now: Millis)
    requires IsEnumeration(order, w) && gid !in w.groups
    requires AddToQueue(w, uid, Some(b), order, gid, now).Ok?
    ensures var r := AddToQueue(w, uid, Some(b), order, gid, now).value;
      gid in r.world.groups <==>
        && r.waitingReaders >= FORMATION_THRESHOLD
        && |EligibleSet(w, b)| + (if w.readers[uid].currentGroup.None? then 1 else 0) >= FORMATION_THRESHOLD
  {
    var w1 := Enqueue(w, uid, b);
    EnqueueSets(w, uid, b, order);
    var extra: set<ReaderId> := if w.readers[uid].currentGroup.None? then {uid} else {};
    assert uid !in EligibleSet(w, b);
    assert |EligibleSet(w1, b)| == |EligibleSet(w, b)| + |extra|;
    if w1.books[b].waitingReaders >= FORMATION_THRESHOLD {
      MatchThreshold(w1, b, order, gid, now);
    }
  }

  /** When an enqueue forms a group, every member, the caller included
      when selected, points at the group, has it appended to the history and
      no longer queues the book; every other reader is as before, except
      that a caller left out keeps the book at the end of the queue. */
  lemma AddToQueueRewiresMembers(w: World, uid: ReaderId, b: BookId, order: seq<ReaderId>, gid: GroupId, now: Millis)
    requires IsEnumeration(order, w) && gid !in w.groups
    requires AddToQueue(w, uid, Some(b), order, gid, now).Ok?
    requires gid in AddToQueue(w, uid, Some(b), order, gid, now).value.world.groups
    ensures var w' := AddToQueue(w, uid, Some(b), order, gid, now).value.world;
      var g := w'.groups[gid];
      forall id | id in w.readers ::
        && (HasRow(g, id) ==>
              && w'.readers[id].currentGroup == Some(gid)
              && w'.readers[id].groups == w.readers[id].groups + [gid]
              && w'.readers[id].queue == Without(w.readers[id].queue, b))
        && (!HasRow(g, id) && id != uid ==> w'.readers[id] == w.readers[id])
        && (!HasRow(g, id) && id == uid ==>
              w'.readers[uid] == w.readers[uid].(queue := w.readers[uid].queue + [b]))
  {
    var w1 := Enqueue(w, uid, b);
    EnqueueSets(w, uid, b, order);
    var m := Match(w1, b, order, gid, now);
    assert m.formed.Some?;
    MatchRewiresMembers(w1, b, order, gid, now);
    WithoutAppended(w.readers[uid].queue, b);
  }

  /** `addToQueue` keeps every book's ledger equal to the number of readers
      queued for it. */
  lemma AddToQueueKeepsLedger(w: World, uid: ReaderId, b: BookId, order: seq<ReaderId>, gid: GroupId, now: Millis, c: BookId)
    requires IsEnumeration(order, w)
    requires AddToQueue(w, uid, Some(b), order, gid, now).Ok?
    requires LedgerConsistent(w, c)
    ensures LedgerConsistent(AddToQueue(w, uid, Some(b), order, gid, now).value.world, c)
  {
    var w1 := Enqueue(w, uid, b);
    EnqueueSets(w, uid, b, order);
    assert LedgerConsistent(w1, c);
    if w1.books[b].waitingReaders >= FORMATION_THRESHOLD {
      MatchKeepsLedger(w1, b, order, gid, now, c);
    }
  }

  /** `addToQueue` keeps the store well formed. */
  lemma AddToQueueKeepsStoreValid(w: World, uid: ReaderId, bookId: Option<BookId>, order: seq<ReaderId>, gid: GroupId, now: Millis)
    requires IsEnumeration(order, w) && gid !in w.groups
    requires WorldValid(w)
    requires AddToQueue(w, uid, bookId, order, gid, now).Ok?
    ensures WorldValid(AddToQueue(w, uid, bookId, order, gid, now).value.world)
  {
    var b := bookId.value;
    var w1 := Enqueue(w, uid, b);
    EnqueueSets(w, uid, b, order);
    forall id | id in w1.readers ensures ReaderWellFormed(w1, w1.readers[id]) {
      assert ReaderWellFormed(w, w.readers[id]);
    }
    if w1.books[b].waitingReaders >= FORMATION_THRESHOLD {
      MatchKeepsStoreValid(w1, b, order, gid, now);
    }
  }

  /** The third reader to queue a book whose queued readers are all free
      forms a group of exactly those three readers; the ledger returns to
      zero and `totalReads` rises by one. */
  lemma ThirdReaderFormsGroup(w: World, uid: ReaderId, b: BookId, order: seq<ReaderId>, gid: GroupId, now: Millis)
    requires IsEnumeration(order, w) && gid !in w.groups
    requires LedgerConsistent(w, b) && w.books[b].waitingReaders == 2
    requires forall id | id in QueuedSet(w, b) :: w.readers[id].currentGroup.None?
    requires uid in w.readers && w.readers[uid].currentGroup.None? && b !in w.readers[uid].queue
    ensures AddToQueue(w, uid, Some(b), order, gid, now).Ok?
    ensures var w' := AddToQueue(w, uid, Some(b), order, gid, now).value.world;
      && gid in w'.groups
      && |w'.groups[gid].members| == 3
      && (forall id | id in QueuedSet(w, b) + {uid} :: HasRow(w'.groups[gid], id))
      && w'.books[b].waitingReaders == 0
      && w'.books[b].totalReads == w.books[b].totalReads + 1
  {
    var w1 := Enqueue(w, uid, b);
    EnqueueSets(w, uid, b, order);
    assert EligibleSet(w1, b) == QueuedSet(w1, b);
    EligibleCount(w1, b, order);
    MatchKeepsLedger(w1, b, order, gid, now, b);
    MatchTakesAllWhenFew(w1, b, order, gid, now);
  }

  /** `removeFromQueue`. Only a missing reader fails. The book leaves the
      queue wherever it occurs; the counter drops by one, never below
      zero, whenever the book exists, whether or not this reader had
      queued it. Without a book id nothing changes. */
  function RemoveFromQueue(w: World, uid: ReaderId, bookId: Option<BookId>): (r: Result<World>)
    ensures r.Err? <==> uid !in w.readers
    ensures r.Err? ==> r.error == ReaderNotFound
    ensures r.Ok? && bookId.None? ==> r.value == w
    ensures r.Ok? ==>
      var w' := r.value;
      && w'.groups == w.groups
      && w'.readers.Keys == w.readers.Keys
      && w'.books.Keys == w.books.Keys
      && (forall id | id in w.readers && id != uid :: w'.readers[id] == w.readers[id])
      && w'.readers[uid].currentGroup == w.readers[uid].currentGroup
      && w'.readers[uid].groups == w.readers[uid].groups
    ensures r.Ok? && bookId.Some? ==>
      var b, w' := bookId.value, r.value;
      && w'.readers[uid].queue == Without(w.readers[uid].queue, b)
      && b !in w'.readers[uid].queue
      && (forall c | c != b :: c in w'.readers[uid].queue <==> c in w.readers[uid].queue)
      && (forall c | c in w.books && c != b :: w'.books[c] == w.books[c])
      && (b in w.books ==>
            && w'.books[b].waitingReaders == Max(0, w.books[b].waitingReaders - 1)
            && w'.books[b].totalReads == w.books[b].totalReads)
  {
    if uid !in w.readers then Err(ReaderNotFound)
    else if bookId.None? then Ok(w)
    else
      var b := bookId.value;
      var reader := w.readers[uid];
      var readers := w.readers[uid := reader.(queue := Without(reader.queue, b))];
      var books :=
        if b in w.books && w.books[b].waitingReaders > 0
        then w.books[b := w.books[b].(waitingReaders := w.books[b].waitingReaders - 1)]
        else w.books;
      Ok(w.(readers := readers, books := books))
  }

  /** Removing a book the reader had queued keeps every ledger consistent;
      removing it from any reader keeps the other books' ledgers. */
  lemma RemoveQueuedKeepsLedger(w: World, uid: ReaderId, b: BookId, c: BookId)
    requires uid in w.readers
    requires LedgerConsistent(w, c)
    requires c == b ==> b in w.readers[uid].queue
    ensures LedgerConsistent(RemoveFromQueue(w, uid, Some(b)).value, c)
  {
    var w' := RemoveFromQueue(w, uid, Some(b)).value;
    if c == b {
      assert uid in QueuedSet(w, b);
      assert QueuedSet(w', b) == QueuedSet(w, b) - {uid};
    } else {
      assert QueuedSet(w', c) == QueuedSet(w, c);
    }
  }

  /** Removing a book the reader never queued still lowers the counter, so
      a consistent ledger falls below the number of readers actually
      waiting. */
  lemma RemoveUnqueuedDriftsLedger(w: World, uid: ReaderId, b: BookId)
    requires uid in w.readers && b !in w.readers[uid].queue
    requires LedgerConsistent(w, b) && w.books[b].waitingReaders > 0
    ensures var w' := RemoveFromQueue(w, uid, Some(b)).value;
      && w'.books[b].waitingReaders == w.books[b].waitingReaders - 1
      && !LedgerConsistent(w', b)
  {
    var w' := RemoveFromQueue(w, uid, Some(b)).value;
    assert QueuedSet(w', b) == QueuedSet(w, b);
  }

  /** A second removal leaves the queues as the first left them but lowers
      the counter again while it is positive. */
  lemma RemoveTwice(w: World, uid: ReaderId, b: BookId)
    requires uid in w.readers && b in w.books
    ensures var w1 := RemoveFromQueue(w, uid, Some(b)).value;
      var w2 := RemoveFromQueue(w1, uid, Some(b)).value;
      && w2.readers == w1.readers
      && w2.books[b].waitingReaders == Max(0, w1.books[b].waitingReaders - 1)
  {
    var w1 := RemoveFromQueue(w, uid, Some(b)).value;
    assert w1.readers[uid].queue == Without(w.readers[uid].queue, b);
    assert w1.readers[uid].(queue := Without(w1.readers[uid].queue, b)) == w1.readers[uid];
  }

  /** Below the formation threshold, removing the book just queued undoes
      `addToQueue` entirely. */
  lemma AddThenRemoveRestores(w: World, uid: ReaderId, b: BookId, order: seq<ReaderId>, gid: GroupId, now: Millis)
    requires AddToQueue(w, uid, Some(b), order, gid, now).Ok?
    requires AddToQueue(w, uid, Some(b), order, gid, now).value.waitingReaders < FORMATION_THRESHOLD
    ensures RemoveFromQueue(AddToQueue(w, uid, Some(b), order, gid, now).value.world, uid, Some(b)) == Ok(w)
  {
    var w1 := AddToQueue(w, uid, Some(b), order, gid, now).value.world;
    var w2 := RemoveFromQueue(w1, uid, Some(b)).value;
    WithoutAppended(w.readers[uid].queue, b);
    assert w2.readers[uid] == w.readers[uid];
    assert w2.readers == w.readers;
    assert w2.books[b] == w.books[b];
    assert w2.books == w.books;
  }

  /** `removeFromQueue` keeps the store well formed. */
  lemma RemoveFromQueueKeepsStoreValid(w: World, uid: ReaderId, bookId: Option<BookId>)
    requires WorldValid(w) && uid in w.readers
    ensures WorldValid(RemoveFromQueue(w, uid, bookId).value)
  {
    var w' := RemoveFromQueue(w, uid, bookId).value;
    forall id | id in w'.readers ensures ReaderWellFormed(w', w'.readers[id]) {
      assert ReaderWellFormed(w, w.readers[id]);
    }
  }
}

=== FILE: store.dfy ===
/** The persisted state the engine reads and writes: the queue-related
    fields of Book (backend/models/Book.js) and User (backend/models/User.js)
    records, and the groups, addressed by id. */
module Store {
  import opened Base
  import opened GroupModel

  /** `waitingReaders` and `totalReads` both carry `min: 0` in the schema. */
  datatype Book = Book(waitingReaders: nat, totalReads: nat)

  datatype Reader = Reader(queue: seq<BookId>, currentGroup: Option<GroupId>, groups: seq<GroupId>)

  datatype World = World(
    books: map<BookId, Book>,
    readers: map<ReaderId, Reader>,
    groups: map<GroupId, Group>)

  /** An order in which a collection scan yields the readers: every stored
      reader exactly once. */
  predicate IsEnumeration(order: seq<ReaderId>, w: World) {
    && Distinct(order)
    && (forall id | id in order :: id in w.readers)
    && (forall id | id in w.readers :: id in order)
  }

  // ---------------------------------------------------------------------
  // Member rewiring after a group is created

  /** One reader joining group `gid` for book `b`: `currentGroup` is set,
      the group is appended to `groups`, and `b` leaves the queue. */
  function Join(r: Reader, gid: GroupId, b: BookId): (j: Reader)
    ensures j.currentGroup == Some(gid)
    ensures b !in j.queue && forall c | c != b :: c in j.queue <==> c in r.queue
    ensures j.groups == r.groups + [gid]
  {
    Reader(Without(r.queue, b), Some(gid), r.groups + [gid])
  }

  /** The per-member update loop of both creation paths, in member order.
      Ids with no stored reader are skipped, as `findByIdAndUpdate` skips
      them. */
  function Enroll(readers: map<ReaderId, Reader>, ids: seq<ReaderId>, gid: GroupId, b: BookId)
    : (r: map<ReaderId, Reader>)
    ensures r.Keys == readers.Keys
    ensures forall id | id in readers && id !in ids :: r[id] == readers[id]
    ensures forall id | id in readers && id in ids ::
      && r[id].currentGroup == Some(gid)
      && r[id].queue == Without(readers[id].queue, b)
      && (forall h :: h in r[id].groups <==> h in readers[id].groups || h == gid)
    decreases |ids|
  {
    if |ids| == 0 then readers
    else
      var init := ids[..|ids| - 1];
      var last := ids[|ids| - 1];
      var rest := Enroll(readers, init, gid, b);
      assert forall id :: id in ids <==> id in init || id == last;
      if last in rest then
        rest[last := Join(rest[last], gid, b)]
      else rest
  }

  /** With distinct ids every member is rewired exactly once. */
  lemma {:induction false} EnrollDistinct(readers: map<ReaderId, Reader>, ids: seq<ReaderId>, gid: GroupId, b: BookId)
    requires Distinct(ids)
    ensures forall id | id in readers && id in ids ::
      Enroll(readers, ids, gid, b)[id] == Join(readers[id], gid, b)
    decreases |ids|
  {
    if |ids| > 0 {
      var init := ids[..|ids| - 1];
      var last := ids[|ids| - 1];
      assert Distinct(init);
      EnrollDistinct(readers, init, gid, b);
      assert last !in init;
      assert forall id :: id in ids <==> id in init || id == last;
    }
  }

  /** Rewiring readers into a group the store now holds keeps every reader
      well formed. */
  lemma EnrollKeepsReaders(w: World, w': World, ids: seq<ReaderId>, gid: GroupId, b: BookId)
    requires w'.readers == Enroll(w.readers, ids, gid, b)
    requires w.groups.Keys + {gid} <= w'.groups.Keys
    requires forall id | id in w.readers :: ReaderWellFormed(w, w.readers[id])
    ensures forall id | id in w'.readers :: ReaderWellFormed(w', w'.readers[id])
  {
    forall id | id in w'.readers ensures ReaderWellFormed(w', w'.readers[id]) {
      var r, r' := w.readers[id], w'.readers[id];
      assert ReaderWellFormed(w, r);
      if id in ids {
        forall i | 0 <= i < |r'.groups| ensures r'.groups[i] in w'.groups {
          var h := r'.groups[i];
          if h != gid {
            assert h in r.groups;
            var k :| 0 <= k < |r.groups| && r.groups[k] == h;
          }
        }
      }
    }
  }

  // ---------------------------------------------------------------------
  // The demand ledger

  /** The readers whose queue holds `b`. */
  function QueuedSet(w: World, b: BookId): set<ReaderId> {
    set id | id in w.readers && b in w.readers[id].queue
  }

  /** `waitingReaders` of `b` equals the number of readers queued for it:
      the invariant the ledger is meant to keep. */
  predicate LedgerConsistent(w: World, b: BookId) {
    b in w.books && w.books[b].waitingReaders == |QueuedSet(w, b)|
  }

  // ---------------------------------------------------------------------
  // Whole-store invariant

  predicate ProgressUnique(ps: seq<Progress>) {
    forall i, j | 0 <= i < j < |ps| :: ps[i].userId != ps[j].userId
  }

  predicate AttendeesUnique(ds: seq<Discussion>) {
    forall i | 0 <= i < |ds| :: Distinct(ds[i].attendees)
  }

  /** What every group in the store satisfies: it passed validation when it
      was saved, keeps one progress row per reader, keeps its four
      discussions, and lists each attendee once. */
  predicate GroupWellFormed(g: Group) {
    && SchemaValid(g)
    && ProgressUnique(g.progress)
    && |g.schedule| == SCHEDULE_WEEKS
    && AttendeesUnique(g.schedule)
  }

  predicate ReaderWellFormed(w: World, r: Reader) {
    && Distinct(r.queue)
    && (r.currentGroup.Some? ==> r.currentGroup.value in w.groups)
    && (forall i | 0 <= i < |r.groups| :: r.groups[i] in w.groups)
  }

  predicate WorldValid(w: World) {
    && (forall id | id in w.readers :: ReaderWellFormed(w, w.readers[id]))
    && (forall gid | gid in w.groups :: GroupWellFormed(w.groups[gid]))
  }

  /** Stores a saved group: the write happens only if validation passes. */
  function Commit(w: World, gid: GroupId, g: Group): (r: Result<World>)
    ensures r.Ok? <==> SchemaValid(g)
    ensures r.Err? ==> r.error == ValidationError
    ensures r.Ok? ==> r.value.groups == w.groups[gid := g] && r.value.books == w.books && r.value.readers == w.readers
  {
    if SchemaValid(g) then Ok(w.(groups := w.groups[gid := g])) else Err(ValidationError)
  }
}

=== FILE: text.dfy ===
/** JavaScript's `String.prototype.trim`, which `sendMessage` applies to the
    text before it checks for emptiness and stores it. */
module Text {

  /** ECMAScript's WhiteSpace and LineTerminator code points: exactly the
      characters `trim` strips from either end. */
  predicate IsTrimmable(c: char) {
    || c == ' ' || c == '\t' || c == '\n' || c == '\r'
    || c == '\U{000B}' || c == '\U{000C}' || c == '\U{00A0}' || c == '\U{1680}'
    || ('\U{2000}' <= c <= '\U{200A}')
    || c == '\U{2028}' || c == '\U{2029}' || c == '\U{202F}' || c == '\U{205F}'
    || c == '\U{3000}' || c == '\U{FEFF}'
  }

  predicate Blank(s: string) {
    forall i | 0 <= i < |s| :: IsTrimmable(s[i])
  }

  /** `s` without its leading trimmable characters. */
  function TrimStart(s: string): (r: string)
    ensures |r| <= |s| && r == s[|s| - |r|..]
    ensures Blank(s[..|s| - |r|])
    ensures |r| > 0 ==> !IsTrimmable(r[0])
  {
    if |s| > 0 && IsTrimmable(s[0]) then
      var r := TrimStart(s[1..]);
      assert s[..|s| - |r|] == [s[0]] + s[1..][..|s[1..]| - |r|];
      r
    else s
  }

  /** `s` without its trailing trimmable characters. */
  function TrimEnd(s: string): (r: string)
    ensures |r| <= |s| && r == s[..|r|]
    ensures Blank(s[|r|..])
    ensures |r| > 0 ==> !IsTrimmable(r[|r| - 1])
  {
    if |s| > 0 && IsTrimmable(s[|s| - 1]) then
      var r := TrimEnd(s[..|s| - 1]);
      assert s[|r|..] == s[..|s| - 1][|r|..] + [s[|s| - 1]];
      r
    else s
  }

  /** Where the trimmed text starts inside the original. */
  function TrimOffset(s: string): (k: nat)
    ensures k <= |s|
  {
    |s| - |TrimStart(s)|
  }

  function Trim(s: string): string {
    TrimEnd(TrimStart(s))
  }

  /** Cutting a whitespace prefix of length `k` off `s` leaves `a`, and
      cutting a whitespace suffix off `a` leaves `t`: then `t` is a middle
      slice of `s` with whitespace on both sides. */
  lemma CutBothEnds(s: string, k: nat, a: string, t: string)
    requires k <= |s| && a == s[k..] && Blank(s[..k])
    requires |a| > 0 ==> !IsTrimmable(a[0])
    requires |t| <= |a| && t == a[..|t|] && Blank(a[|t|..])
    ensures k + |t| <= |s| && t == s[k..k + |t|]
    ensures Blank(s[k + |t|..])
    ensures |t| > 0 ==> !IsTrimmable(t[0])
  {
    assert a[|t|..] == s[k + |t|..];
    if |t| > 0 {
      assert t[0] == a[0];
    }
  }

  /** The trimmed text is one contiguous piece of the original, everything
      cut off on either side is whitespace, and it neither starts nor ends
      with whitespace. */
  lemma {:induction false} TrimIsCore(s: string)
    ensures TrimOffset(s) + |Trim(s)| <= |s|
    ensures Trim(s) == s[TrimOffset(s)..TrimOffset(s) + |Trim(s)|]
    ensures Blank(s[..TrimOffset(s)]) && Blank(s[TrimOffset(s) + |Trim(s)|..])
    ensures |Trim(s)| > 0 ==> !IsTrimmable(Trim(s)[0]) && !IsTrimmable(Trim(s)[|Trim(s)| - 1])
  {
    CutBothEnds(s, TrimOffset(s), TrimStart(s), Trim(s));
  }

  /** The trimmed text is empty exactly when the original is all whitespace:
      the condition under which a message is refused as empty. */
  lemma {:induction false} TrimEmptyIffBlank(s: string)
    ensures |Trim(s)| == 0 <==> Blank(s)
  {
    TrimIsCore(s);
    var k := TrimOffset(s);
    if |Trim(s)| == 0 {
      assert s[..k] == s;
    } else {
      var c := Trim(s)[0];
      assert c == s[k];
    }
  }

  /** Trimming twice is trimming once. */
  lemma {:induction false} TrimIdempotent(s: string)
    ensures Trim(Trim(s)) == Trim(s)
  {
    TrimIsCore(s);
    var t := Trim(s);
    if |t| > 0 {
      assert TrimStart(t) == t;
      assert TrimEnd(t) == t;
    }
  }
}
